=== FILE: README.md ===
# cxo-council in Dafny

A model of the deliberation core of the CxO Council command-line tool. The
tool has four executives (CPO, CTO, COO and CISO) review a document and a
CEO synthesise their reviews. The review has four sequential stages:

1. Each executive reviews the document from their own domain.
2. Each executive reads the stage-1 reviews and puts questions to the others.
3. Each executive who was asked something answers.
4. The CEO writes the synthesis.

The model covers these parts of the tool:

- **Text** (`text.dfy`): the Python string operations the tool relies on.
  - `upper()` on ASCII;
  - `in` and `find`;
  - `split` and `join`;
  - `replace`, which works left to right and does not overlap matches;
  - `strip()`.
- **Prompts** (`prompts.dfy`, from `cxo_council/prompts.py`):
  - the four stage templates, as a parameter whose text is left open;
  - the two stage formatters;
  - the extractor that collects the questions put to one role;
  - the detector that decides which roles answer in stage 3.
- **LlmClient** (`llm_client.dfy`, from `cxo_council/llm_client.py`):
  - how a configured model id is rewritten before it is sent;
  - the rule that a failed request comes back as `ERROR: ...` text instead of
    raising.

  The HTTP request itself is an uninterpreted provider function.
- **Config** (`config.dfy`, from `cxo_council/council.py`):
  - the defaults a parsed config file is completed with;
  - the JSONC line filter, which drops lines that are `//` comments once
    surrounding whitespace is stripped.
- **Council** (`council.dfy`): `CouncilV1.review_document` as a pure
  pipeline.
  - The language model is an oracle from a `Call` (prompt, model id,
    temperature) to reply text.
  - The pipeline returns the review together with a log of the calls it made,
    stage by stage.
  - `Pipeline` is stated over any roster, any way of wording the prompts
    (`Prompter`) and any stage text functions (`Texts`).
  - `ReviewDocument` instantiates it with the templates' substitution chains
    and the formatters, extractor and detector of `prompts.py`.
  - The lemmas about `ReviewDocument` connect the generic statements to the
    shipped council.

Temperatures are in tenths: 0.7 is `7` and 0.6 is `6`.

Some behaviour of the code that the proofs make explicit:

- Calls are made one after another.
- A provider failure becomes reply text: every stage still runs, and each
  failed reply starts with "ERROR: " (`Council.FailuresDoNotAbort`).
- Stage 3 is prompted with the stage-1 text and the role's questions.
  It does not see the stage-2 text (`Council.ReviewStageThreeCalls`).
- Model ids are rewritten before they are sent (`LlmClient` lemmas).
- The stage-2 prompt has no `{role}` substitution. Executives with the same
  instructions get the same stage-2 prompt
  (`Council.StageTwoPromptIgnoresRole`) and make the same stage-2 call
  (`Council.DefaultStageTwoCallsAgree`). With no instructions configured
  (`Config.NoInstructionsByDefault`), the four stage-2 calls are one and the
  same request.

Routing between stages 2 and 3 is consistent in one direction only.
`Prompts.ExtractedImpliesDetected` proves that a role that has a question
extracted for it is always detected. `Prompts.DetectedWithoutQuestion` shows
that the converse fails: a colon-less "Question to CTO?" makes the CTO answer
in stage 3, and the CTO is then told "No questions directed to your role."

## Model

| member | source | states |
|---|---|---|
| Prompts.FormatStage1 | cxo_council/prompts.py:126-133 | the stage-1 text is empty exactly when there are no records; a single record gives exactly its block `### role\nresponse\n`; every record's block occurs in the text |
| Prompts.FormatStage1Concat | cxo_council/prompts.py:126-133 | record order is kept: for two non-empty record lists `a` and `b`, the stage-1 text of `a + b` is the text of `a`, then "\n---\n", then the text of `b` |
| Prompts.FormatStage2 | cxo_council/prompts.py:136-143 | the same three facts for the stage-2 text |
| Prompts.FormatStage2Concat | cxo_council/prompts.py:136-143 | for two non-empty record lists `a` and `b`, the stage-2 text of `a + b` is the two texts joined by one "\n" |
| Prompts.FormatConcat | cxo_council/prompts.py:128-133 | for any separator and two non-empty record lists, formatting their concatenation is formatting each list and joining the two texts with one separator |
| Prompts.MissingKeysDefault | cxo_council/prompts.py:130-141 | for any record, dropping its role shows it as "Executive" and dropping its response gives it an empty body, in both stage formatters |
| Prompts.FirstMatching | cxo_council/prompts.py:162-168 | the winning pattern is the first, in priority order, whose upper-cased form occurs in the upper-cased line; no earlier pattern occurs |
| Prompts.QuestionInSpec | cxo_council/prompts.py:160-168 | a line yields a question if and only if some pattern occurs in it, ignoring case; the question is the suffix of the line that starts at the first case-blind occurrence of the winning pattern |
| Prompts.CapturedStartsWithPattern | cxo_council/prompts.py:161-167 | ignoring case, a captured question begins with the pattern that caught it |
| Prompts.LineQuestions | cxo_council/prompts.py:158-168 | each line gives at most one question; there are none if and only if no line matches; every result is the attribution of some matching line, and every matching line's question is among the results |
| Prompts.LineQuestionsConcat | cxo_council/prompts.py:160-168 | questions keep line order: the questions of two runs of lines are the questions of the first run followed by those of the second |
| Prompts.RecordQuestions | cxo_council/prompts.py:156-168 | a record contributes no question if and only if it asks the target nothing; each question it contributes starts with "From " + its author (or "Unknown") + ": " |
| Prompts.Questions | cxo_council/prompts.py:156-170 | there are no questions for the target if and only if no record asks it anything |
| Prompts.QuestionsConcat | cxo_council/prompts.py:156-168 | questions keep record order: the questions of two record lists are those of the first list followed by those of the second |
| Prompts.QuestionsAttributed | cxo_council/prompts.py:167 | every extracted question begins with "From " |
| Prompts.ExtractDirectedQuestions | cxo_council/prompts.py:146-173 | the result is never empty; it is "No questions directed to your role." if and only if no record asks the target anything; otherwise it starts with "From " and is the questions joined by "\n\n" |
| Prompts.ExecutivesWithQuestions | cxo_council/prompts.py:176-193 | a role is returned if and only if it is one of CPO, CTO, COO and CISO and some record's upper-cased response contains one of its four phrases as a plain substring |
| Prompts.PatternCovers | cxo_council/prompts.py:149-189 | each upper-cased extraction pattern contains the detection pattern at the same position |
| Prompts.AskedIsMentioned | cxo_council/prompts.py:149-190 | a record that asks one of the four roles something also mentions that role for the detector |
| Prompts.ExtractedImpliesDetected | cxo_council/prompts.py:146-193 | if the questions extracted for one of the four roles are not the no-questions reply, the detector returns that role |
| Prompts.DetectedWithoutQuestion | cxo_council/prompts.py:146-193 | the converse fails: for the single answer "Question to CTO?", the CTO is detected, yet extraction gives the no-questions reply |
| Prompts.ColonlessNoCapture | cxo_council/prompts.py:149-154 | all four extraction patterns end in a colon, so a line without a colon yields no question, whatever the target |
| Text.Upper | cxo_council/prompts.py:161 | upper-casing keeps the length, so an index found in the upper-cased line is valid in the original |
| Text.Find | cxo_council/prompts.py:165 | `find` is -1 or a position where the pattern occurs, and the pattern occurs at no earlier position |
| Text.Split | cxo_council/prompts.py:158 | `split` gives at least one piece; joining the pieces gives the text back; no piece contains the separator |
| Text.SplitJoin | cxo_council/council.py:69-73 | splitting a join of one or more pieces, none holding the one-character separator, gives the pieces back |
| Text.ReplaceIsSplitJoin | cxo_council/llm_client.py:20 | for a non-empty pattern, `replace` equals splitting at the pattern and joining with the replacement, so every non-overlapping occurrence goes |
| Text.ReplaceLeavesNone | cxo_council/council.py:102 | replacing a pattern with non-empty text that shares no character with it leaves no occurrence of the pattern |
| Text.Strip | cxo_council/council.py:70 | the stripped line has non-whitespace ends and is the line with only whitespace removed at each end |
| Text.StripStartsAt | cxo_council/council.py:70-71 | when the first non-whitespace character of a line is at `i`, the stripped line starts at `i` |
| LlmClient.RewritePassesThrough | cxo_council/llm_client.py:20-24 | an id with no "openrouter:" anywhere that does not start with "anthropic:" is sent unchanged |
| LlmClient.RewriteRemovesEveryOpenRouter | cxo_council/llm_client.py:20-24 | every non-overlapping "openrouter:" of the configured id is removed, left to right, and the anthropic check looks at the glued pieces; the gluing can form a new "openrouter:", which stays |
| LlmClient.RewriteJoinsPieces | cxo_council/llm_client.py:20-24 | an id with a single "openrouter:" and no "anthropic:" at the front of the rest is sent as the text before it followed by the text after it |
| LlmClient.RemovalCanFormOpenRouter | cxo_council/llm_client.py:20-24 | "openopenrouter:router:x" is sent as "openrouter:x", which still contains "openrouter:" |
| LlmClient.RewriteOpenRouterPrefixed | cxo_council/llm_client.py:20-24 | an "openrouter:" prefix is dropped and the rest is sent unchanged, when the rest holds no other trigger |
| LlmClient.RewriteAnthropicPrefixed | cxo_council/llm_client.py:20-24 | for any id that starts with "anthropic:" and holds no "openrouter:", that prefix and every later "anthropic:" become "anthropic/"; with no later one, the rest is sent unchanged |
| LlmClient.RewriteNeverLeavesAnthropicColon | cxo_council/llm_client.py:20-24 | no id is ever sent starting with "anthropic:" |
| LlmClient.AnthropicOnlyAtFront | cxo_council/llm_client.py:23-24 | "x-anthropic:y" is sent unchanged, because the anthropic rewrite fires only at the front |
| LlmClient.RewriteBothPrefixes | cxo_council/llm_client.py:20-24 | "openrouter:anthropic:" followed by a colon-free rest is sent as "anthropic/" followed by the rest |
| LlmClient.ErrorPrefixIff | cxo_council/llm_client.py:45-47 | the reply starts with "ERROR: " if and only if the request failed or the model's own answer starts with "ERROR: ", so a caller cannot always tell the two apart |
| LlmClient.OpenRouterThenAnthropic | cxo_council/llm_client.py:20-24 | "openrouter:anthropic:x" is sent as "anthropic/x" |
| Config.NoInstructionsByDefault | cxo_council/council.py:40 | for any config file without a `custom_role_instructions` key, every role's instructions are "" |
| Config.DefaultModelsAsSent | cxo_council/council.py:43-44 | for any config file without the two model keys, the executives are sent "deepseek/deepseek-v3.2" and the CEO "anthropic/claude-sonnet-4-5-20250929" |
| Config.DefaultExecutiveAsSent | cxo_council/council.py:43 | the default executive id "openrouter:deepseek/deepseek-v3.2" is sent as "deepseek/deepseek-v3.2" |
| Config.DefaultCeoAsSent | cxo_council/council.py:44 | the default CEO id "anthropic:claude-sonnet-4-5-20250929" is sent as "anthropic/claude-sonnet-4-5-20250929" |
| Config.Filter | cxo_council/council.py:68-72 | the kept lines are exactly the accepted ones; none is added; all lines are kept when all are accepted |
| Config.FilterConcat | cxo_council/council.py:69-72 | kept lines keep their order: filtering two blocks of lines is filtering each |
| Config.CleanedLinesAreKeptLines | cxo_council/council.py:68-73 | the lines of the cleaned text are exactly the non-comment lines of the original, and the text is empty when every line is a comment |
| Config.StripCommentLinesIdempotent | cxo_council/council.py:66-73 | cleaning an already cleaned text changes nothing |
| Config.EmptyStaysEmpty | cxo_council/council.py:66-73 | an empty file stays empty |
| Config.CommentLineDropped | cxo_council/council.py:70-72 | a line whose first non-whitespace characters are "//" is dropped |
| Config.DataLineKept | cxo_council/council.py:70-72 | a line whose first non-whitespace character is not "/" is kept, even if it contains "//" later, for example in a URL |
| Council.Stage1PromptFillsEveryRole | cxo_council/council.py:98-102 | `{role}` is replaced last, so no "{role}" is left in a stage-1 prompt, not even one that came in with the document, the context or the instructions |
| Council.StageTwoPromptIgnoresRole | cxo_council/council.py:119-122 | the role reaches a stage-2 prompt only through its instructions: two roles with the same instructions get the same prompt |
| Council.DefaultStageTwoCallsAgree | cxo_council/council.py:115-124 | in any review, two executives with the same instructions make the same stage-2 call; with no instructions configured, all four calls are one request |
| Council.AskEach | cxo_council/council.py:94-106 | one call per role in roster order, each with the given model and temperature; each role's record holds the reply to its own call |
| Council.Responders | cxo_council/council.py:138-141 | stage-3 responders are exactly the roster roles that were detected, in roster order |
| Council.SelectKeepsOrder | cxo_council/council.py:139-141 | the roles picked from a roster without repeats are in roster order |
| Council.Stage3Round | cxo_council/council.py:135-157 | stage-3 records are exactly the detected roster roles, in roster order; each call carries the role's stage-3 prompt with the stage-1 text and that role's questions, at 0.7; each record holds the reply to its call |
| Council.Stage3Text | cxo_council/council.py:159 | the stage-3 text is "No responses required." if and only if there are no stage-3 records; otherwise it is the stage-2 formatting of them |
| Council.Pipeline | cxo_council/council.py:76-188 | stages 1 and 2 hold one record per role in roster order; stage 3 holds exactly the detected roster roles, in roster order; the run makes 2·roles + stage-3 roles + 1 calls |
| Council.StageOneCalls | cxo_council/council.py:94-106 | the i-th stage-1 call is role i's stage-1 prompt with the executives' model at 0.7, and role i's record holds its reply |
| Council.StageTwoCalls | cxo_council/council.py:115-126 | the i-th stage-2 call is role i's stage-2 prompt built from the stage-1 text, with the executives' model at 0.6, and role i's record holds its reply |
| Council.StageThreeCalls | cxo_council/council.py:138-155 | each stage-3 call is the role's stage-3 prompt built from the stage-1 text and that role's questions, with the executives' model at 0.7 |
| Council.SynthesisCall | cxo_council/council.py:159-188 | the synthesis call is the stage-4 prompt over the three stage texts with the CEO's model at 0.7, and the returned synthesis is its reply |
| Council.ReviewStageOneCalls | cxo_council/council.py:98-104 | in the tool, stage-1 prompts substitute instructions, context, document and then role into the stage-1 template |
| Council.ReviewStageTwoCalls | cxo_council/council.py:119-124 | stage-2 prompts substitute only instructions, context and the formatted stage-1 text |
| Council.ReviewStageThreeCalls | cxo_council/council.py:145-153 | stage-3 prompts substitute instructions, context, the stage-1 text (not the stage-2 text) and the questions extracted for that role |
| Council.ReviewSynthesisCall | cxo_council/council.py:168-175 | the synthesis prompt substitutes context, document, the stage-1 text, the stage-2 text and the stage-3 text, and goes to the CEO's model |
| Council.CallCount | cxo_council/council.py:94-175 | with a roster without repeats, the run makes 2·roles + 1 calls plus one per roster role the detector returned |
| Council.CoveringRosterCallCount | cxo_council/council.py:135-157 | with a roster without repeats, when the detector only returns roster roles, stage 3 is answered by exactly the detected roles and the call count is 2·roles + detected + 1 |
| Council.ShippedRosterCoversDetector | cxo_council/council.py:33 | the roster CPO, CTO, COO, CISO has no repeats and covers every role the detector can return |
| Council.ShippedRosterCallCount | cxo_council/council.py:135-157 | for the shipped council, stage 3 is answered by exactly the roles `get_executives_with_questions` returns, and a review makes 4 + 4 + that many + 1 calls |
| Council.RepliesAreRecorded | cxo_council/council.py:183-188 | replies are stored unchanged: whatever holds of every oracle reply holds of every stage's responses and of the synthesis |
| Council.FailingProviderAnswersErrors | cxo_council/llm_client.py:46-47 | over a provider that always fails, every reply is an "ERROR: " text |
| Council.FailuresDoNotAbort | cxo_council/llm_client.py:46-47 | a provider that always fails does not stop a review: all four executives answer in stages 1 and 2, and every response and the synthesis is an "ERROR: " text |

## Left out

- The HTTP request is left out: headers, timeout, the JSON body and the
  parsing of the response in `llm_client.py`. It is the uninterpreted
  `Provider`, so a completion's content and a failure's message are
  parameters.
- The API key lookup is left out. It is environment access.
- Finding the config file, reading it and `json.loads` are left out because
  they are I/O and a library call. A parsed config is a `ConfigFile` whose
  keys may be missing.
- Reading the document is left out. The document is the `doc` parameter.
- All `print` output is left out.
- The Windows console setup is left out.
- `cxo_council/cli.py` is not part of this model. It is argument parsing and
  file writing.
- The text of the four templates is left out. `Templates` is a parameter,
  and every property is proved for any template text.
- `Text.Upper` and `Text.Strip` cover only ASCII letters and ASCII
  whitespace. Python's Unicode case mapping can change a string's length.
- Temperatures are integer tenths, not floating point.
- A completion whose content is JSON `null` is not modelled. A `Completion`
  always carries a string. In the code, `query` returns `None` for such a
  reply. A stage-1 `None` is shown as "None" in the stage texts. A stage-2
  `None` makes `get_executives_with_questions` call `.upper()` on it, outside
  `query`'s `try`, which aborts the review. `Council.FailuresDoNotAbort` is
  about requests that fail, not about null content.
- The language model is a function of the call: two identical calls get the
  same reply. A sampling model need not behave this way, and with no
  instructions configured the four stage-2 calls are identical. No proved
  property relies on equal replies except `Council.DefaultStageTwoCallsAgree`,
  which is about the calls, not the replies.
- Config.Configure has no contract of its own. Each field is the key's value
  when present and its default otherwise. Its consequences are stated in
  `Config.DefaultModelsAsSent` and `Config.NoInstructionsByDefault`.
- Council.ReviewDocument has no contract of its own. Its properties are the
  `Pipeline` lemmas, instantiated by `Council.ReviewStageOneCalls` through
  `Council.ReviewSynthesisCall`, `Council.ShippedRosterCallCount` and
  `Council.FailuresDoNotAbort`.
- The stage prompt builders (`Council.Stage1Prompt` to `Council.Stage4Prompt`)
  are the `str.replace` chains themselves. Only `{role}` being filled last is
  proved about them (`Council.Stage1PromptFillsEveryRole`).

=== FILE: config.dfy ===
/** The council's configuration (cxo_council/council.py, `CouncilV1.__init__`
    and `_load_config`): the defaults applied to a parsed config file, and the
    line filter that turns a JSONC file into the text handed to the JSON
    parser. Finding the file and parsing JSON are not modelled. */
module Config {
  import opened Options
  import opened Text
  import LlmClient

  // ---------------------------------------------------------------------
  // Defaults
  // ---------------------------------------------------------------------

  /** The keys of the parsed config object the council reads; each may be missing. */
  datatype ConfigFile = ConfigFile(
    operationalContext: Option<string>,
    customRoleInstructions: Option<map<string, string>>,
    executiveModel: Option<string>,
    ceoModel: Option<string>)

  /** The settings a council runs with. */
  datatype Settings = Settings(
    operationalContext: string,
    roleInstructions: map<string, string>,
    executiveModel: string,
    ceoModel: string)

  const DefaultExecutiveModel := "openrouter:deepseek/deepseek-v3.2"
  const DefaultCeoModel := "anthropic:claude-sonnet-4-5-20250929"

  /** The settings a config file yields: each key present wins, each missing key
      takes its default. */
  function Configure(file: ConfigFile): Settings {
    Settings(
      file.operationalContext.GetOr(""),
      file.customRoleInstructions.GetOr(map[]),
      file.executiveModel.GetOr(DefaultExecutiveModel),
      file.ceoModel.GetOr(DefaultCeoModel))
  }

  /** The extra instructions for `role`: the configured text, or "" when the
      role has none. */
  function Instructions(s: Settings, role: string): string {
    if role in s.roleInstructions then s.roleInstructions[role] else ""
  }

  /** With no `custom_role_instructions` key, no role has instructions. */
  lemma NoInstructionsByDefault(file: ConfigFile, role: string)
    requires file.customRoleInstructions.None?
    ensures Instructions(Configure(file), role) == ""
  {
  }

  /** With no model keys configured, the executives are sent to
      "deepseek/deepseek-v3.2" and the CEO to
      "anthropic/claude-sonnet-4-5-20250929" once the client has rewritten the
      ids. */
  lemma DefaultModelsAsSent(file: ConfigFile)
    requires file.executiveModel.None? && file.ceoModel.None?
    ensures LlmClient.RewriteModelId(Configure(file).executiveModel) == "deepseek/deepseek-v3.2"
    ensures LlmClient.RewriteModelId(Configure(file).ceoModel) == "anthropic/claude-sonnet-4-5-20250929"
  {
    DefaultExecutiveAsSent();
    DefaultCeoAsSent();
  }

  lemma DefaultExecutiveAsSent()
    ensures LlmClient.RewriteModelId(DefaultExecutiveModel) == "deepseek/deepseek-v3.2"
  {
    var rest := "deepseek/deepseek-v3.2";
    DefaultExecutiveIsPrefixed(rest);
    assert !Contains(rest, "openrouter:") by {
      AbsentCharNotContained(rest, "openrouter:", ':');
    }
    assert rest[0] != "anthropic:"[0];
    LlmClient.RewriteOpenRouterPrefixed(rest);
  }

  // The id's tail is a parameter pinned by `requires` in the lemmas below:
  // with literal arguments throughout, the verifier would evaluate the
  // rewrite of the whole literal id instead of reasoning about its parts.

  lemma DefaultExecutiveIsPrefixed(rest: string)
    requires rest == "deepseek/deepseek-v3.2"
    ensures DefaultExecutiveModel == "openrouter:" + rest
  {
  }

  lemma DefaultCeoAsSent()
    ensures LlmClient.RewriteModelId(DefaultCeoModel) == "anthropic/claude-sonnet-4-5-20250929"
  {
    var rest := "claude-sonnet-4-5-20250929";
    DefaultCeoIsPrefixed(rest);
    DefaultCeoSentForm(rest);
    assert !Contains(rest, "anthropic:") by {
      AbsentCharNotContained(rest, "anthropic:", ':');
    }
    DefaultCeoHasNoOpenRouter();
    LlmClient.RewriteAnthropicPrefixed(rest);
  }

  lemma DefaultCeoHasNoOpenRouter()
    ensures !Contains(DefaultCeoModel, "openrouter:")
  {
    LastCharTooEarly(DefaultCeoModel, "openrouter:");
  }

  lemma DefaultCeoIsPrefixed(rest: string)
    requires rest == "claude-sonnet-4-5-20250929"
    ensures DefaultCeoModel == "anthropic:" + rest
  {
  }

  lemma DefaultCeoSentForm(rest: string)
    requires rest == "claude-sonnet-4-5-20250929"
    ensures "anthropic/" + rest == "anthropic/claude-sonnet-4-5-20250929"
  {
  }

  // ---------------------------------------------------------------------
  // JSONC comment lines
  // ---------------------------------------------------------------------

  /** A line that is a comment once surrounding whitespace is ignored. */
  predicate IsCommentLine(line: string) {
    StartsWith(Strip(line), "//")
  }

  /** The lines `keep` accepts, in their original order. */
  function Filter(lines: seq<string>, keep: string -> bool): (kept: seq<string>)
    ensures |kept| <= |lines|
    ensures forall k :: 0 <= k < |kept| ==> keep(kept[k])
    ensures forall x :: x in kept <==> x in lines && keep(x)
    ensures (forall k :: 0 <= k < |lines| ==> keep(lines[k])) ==> kept == lines
    decreases |lines|
  {
    if |lines| == 0 then []
    else if keep(lines[0]) then [lines[0]] + Filter(lines[1..], keep)
    else Filter(lines[1..], keep)
  }

  /** The lines that are not comment lines, in their original order. */
  function KeptLines(lines: seq<string>): seq<string> {
    Filter(lines, line => !IsCommentLine(line))
  }

  /** The text handed to the JSON parser: the file's lines without the comment
      lines, joined back with newlines. A comment after data on the same line
      stays. */
  function StripCommentLines(content: string): string {
    Join(KeptLines(Split(content, "\n")), "\n")
  }

  /** Filtering the lines of two blocks is filtering each: the kept lines keep
      their order. */
  lemma {:induction false} FilterConcat(a: seq<string>, b: seq<string>, keep: string -> bool)
    ensures Filter(a + b, keep) == Filter(a, keep) + Filter(b, keep)
    decreases |a|
  {
    if |a| > 0 {
      assert (a + b)[0] == a[0];
      assert (a + b)[1..] == a[1..] + b;
      FilterConcat(a[1..], b, keep);
      if keep(a[0]) {
        assert Filter(a + b, keep) == [a[0]] + Filter(a[1..] + b, keep);
        assert Filter(a, keep) == [a[0]] + Filter(a[1..], keep);
      } else {
        assert Filter(a + b, keep) == Filter(a[1..] + b, keep);
      }
    } else {
      assert a + b == b;
    }
  }

  /** The lines of the cleaned text are exactly the kept lines of the original,
      and the cleaned text is empty when every line was a comment. */
  lemma CleanedLinesAreKeptLines(content: string)
    ensures |KeptLines(Split(content, "\n"))| == 0 ==> StripCommentLines(content) == ""
    ensures |KeptLines(Split(content, "\n"))| > 0 ==>
      Split(StripCommentLines(content), "\n") == KeptLines(Split(content, "\n"))
  {
    FilteredLinesSplitBack(Split(content, "\n"), line => !IsCommentLine(line));
  }

  /** Joining a selection of newline-free lines and splitting the result again
      gives the selection back. */
  lemma FilteredLinesSplitBack(lines: seq<string>, keep: string -> bool)
    requires forall k :: 0 <= k < |lines| ==> !Contains(lines[k], "\n")
    ensures |Filter(lines, keep)| > 0 ==> Split(Join(Filter(lines, keep), "\n"), "\n") == Filter(lines, keep)
  {
    var kept := Filter(lines, keep);
    if |kept| > 0 {
      forall k | 0 <= k < |kept|
        ensures !Contains(kept[k], "\n")
      {
        assert kept[k] in lines;
      }
      SplitJoin(kept, "\n");
    }
  }

  /** Cleaning a cleaned text changes nothing. */
  lemma StripCommentLinesIdempotent(content: string)
    ensures StripCommentLines(StripCommentLines(content)) == StripCommentLines(content)
  {
    var kept := KeptLines(Split(content, "\n"));
    CleanedLinesAreKeptLines(content);
    if |kept| == 0 {
      EmptyStaysEmpty();
    } else {
      assert KeptLines(kept) == kept;
    }
  }

  /** An empty file is one empty line, which is not a comment. */
  lemma EmptyStaysEmpty()
    ensures StripCommentLines("") == ""
  {
    assert !Contains("", "\n");
    SplitWithoutSeparator("", "\n");
    assert |Strip("")| == 0;
    assert KeptLines([""]) == [""];
  }

  /** A line whose first non-whitespace characters are "//" is dropped. */
  lemma CommentLineDropped(line: string, i: int)
    requires 0 <= i && i + 2 <= |line| && line[i..i + 2] == "//"
    requires forall k :: 0 <= k < i ==> IsSpace(line[k])
    ensures IsCommentLine(line)
  {
    assert line[i] == '/' && line[i + 1] == '/';
    StripStartsAt(line, i);
    var r := Strip(line);
    assert !IsSpace(line[i + 1]);
    assert 2 <= |r|;
    assert r[..2] == line[i..i + 2];
  }

  /** A line whose first non-whitespace character is not '/' is kept, whatever
      it holds later (a URL, a trailing comment). */
  lemma DataLineKept(line: string, i: int)
    requires 0 <= i < |line| && !IsSpace(line[i]) && line[i] != '/'
    requires forall k :: 0 <= k < i ==> IsSpace(line[k])
    ensures !IsCommentLine(line)
  {
    StripStartsAt(line, i);
    assert Strip(line)[0] == line[i];
  }
}

=== FILE: council.dfy ===
/** The four-stage review (`CouncilV1.review_document` in cxo_council/council.py)
    as a pure pipeline. The language model is an oracle from a call (prompt,
    model id, temperature) to the reply text; the pipeline returns its result
    together with the log of calls it made, in the order it made them. Reading
    the document and printing progress are not modelled. */
module Council {
  import opened Options
  import opened Text
  import opened Prompts
  import opened Config
  import LlmClient

  /** The executives, in the order every stage visits them. */
  const Roles: seq<string> := ["CPO", "CTO", "COO", "CISO"]

  /** Sampling temperatures, in tenths. */
  const Stage1Temperature: nat := 7
  const Stage2Temperature: nat := 6
  const Stage3Temperature: nat := 7
  const Stage4Temperature: nat := 7

  /** One request to the language model. */
  datatype Call = Call(prompt: string, model: string, temperature: nat)

  /** The language model: the reply text to a call. Failures are already text
      (see `LlmClient.Query`). */
  type Oracle = Call -> string

  /** The oracle the OpenRouter client gives over a provider. */
  function Client(provider: LlmClient.Provider): Oracle {
    (c: Call) => LlmClient.Query(provider, c.prompt, c.model, c.temperature)
  }

  // ---------------------------------------------------------------------
  // Prompts
  // ---------------------------------------------------------------------

  /** Stage 1: instructions, context, document, and then every `{role}`,
      including any that the earlier substitutions brought in. */
  function Stage1Prompt(t: Templates, s: Settings, doc: string, role: string): string {
    var p := ReplaceAll(t.stage1, "{role_instructions}", Instructions(s, role));
    var p := ReplaceAll(p, "{operational_context}", s.operationalContext);
    var p := ReplaceAll(p, "{document_content}", doc);
    ReplaceAll(p, "{role}", role)
  }

  /** Stage 2: instructions, context and the formatted stage-1 reviews. */
  function Stage2Prompt(t: Templates, s: Settings, role: string, stage1Text: string): string {
    var p := ReplaceAll(t.stage2, "{role_instructions}", Instructions(s, role));
    var p := ReplaceAll(p, "{operational_context}", s.operationalContext);
    ReplaceAll(p, "{stage1_text}", stage1Text)
  }

  /** Stage 3: instructions, context, the formatted stage-1 reviews (not the
      stage-2 questions) and the questions directed at this role. */
  function Stage3Prompt(t: Templates, s: Settings, role: string, stage1Text: string, questions: string): string {
    var p := ReplaceAll(t.stage3, "{role_instructions}", Instructions(s, role));
    var p := ReplaceAll(p, "{operational_context}", s.operationalContext);
    var p := ReplaceAll(p, "{stage1_text}", stage1Text);
    ReplaceAll(p, "{directed_questions}", questions)
  }

  /** Stage 4: context, document and the three earlier stages' texts. */
  function Stage4Prompt(t: Templates, s: Settings, doc: string, stage1Text: string, stage2Text: string, stage3Text: string): string {
    var p := ReplaceAll(t.stage4, "{operational_context}", s.operationalContext);
    var p := ReplaceAll(p, "{document_content}", doc);
    var p := ReplaceAll(p, "{stage1_text}", stage1Text);
    var p := ReplaceAll(p, "{stage2_text}", stage2Text);
    ReplaceAll(p, "{stage3_text}", stage3Text)
  }

  /** None of the four executives' names shares a character with "{role}". */
  lemma RoleNamesAvoidPlaceholder(role: string)
    requires role in Roles
    ensures |role| > 0 && SharesNoChar(role, "{role}")
  {
  }

  /** After the last substitution no "{role}" is left in a stage-1 prompt, not
      even one that came in with the document, the context or the
      instructions. */
  lemma Stage1PromptFillsEveryRole(t: Templates, s: Settings, doc: string, role: string)
    requires role in Roles
    ensures !Contains(Stage1Prompt(t, s, doc, role), "{role}")
  {
    var p1 := ReplaceAll(t.stage1, "{role_instructions}", Instructions(s, role));
    var p2 := ReplaceAll(p1, "{operational_context}", s.operationalContext);
    var p3 := ReplaceAll(p2, "{document_content}", doc);
    RoleNamesAvoidPlaceholder(role);
    ReplaceLeavesNone(p3, "{role}", role);
  }

  /** The stage-2 template is filled without `{role}`: two executives with the
      same instructions (none, by default) get the same stage-2 prompt, so
      stage 2 does not tell the model which executive it speaks for. */
  lemma StageTwoPromptIgnoresRole(t: Templates, s: Settings, r1: string, r2: string, stage1Text: string)
    requires Instructions(s, r1) == Instructions(s, r2)
    ensures Stage2Prompt(t, s, r1, stage1Text) == Stage2Prompt(t, s, r2, stage1Text)
  {
  }

  // ---------------------------------------------------------------------
  // Rounds
  // ---------------------------------------------------------------------

  /** The records one round produced and the calls it made. */
  datatype Round = Round(records: seq<Record>, calls: seq<Call>)

  /** The role names of a round's records. */
  function RoleNames(rs: seq<Record>): seq<string> {
    seq(|rs|, i requires 0 <= i < |rs| => rs[i].role.GetOr(""))
  }

  /** Ask each role in turn: one call per role, in order, and each role's
      record holds the oracle's reply to its own call. */
  function AskEach(query: Oracle, roles: seq<string>, prompt: string -> string, model: string, temperature: nat): (out: Round)
    ensures |out.records| == |roles| && |out.calls| == |roles|
    ensures forall i :: 0 <= i < |roles| ==> out.calls[i] == Call(prompt(roles[i]), model, temperature)
    ensures forall i :: 0 <= i < |roles| ==> out.records[i] == Answer(roles[i], query(out.calls[i]))
    ensures RoleNames(out.records) == roles
    decreases |roles|
  {
    if |roles| == 0 then Round([], [])
    else
      var earlier := AskEach(query, roles[..|roles| - 1], prompt, model, temperature);
      var role := roles[|roles| - 1];
      var call := Call(prompt(role), model, temperature);
      Round(earlier.records + [Answer(role, query(call))], earlier.calls + [call])
  }

  // ---------------------------------------------------------------------
  // Who answers in stage 3
  // ---------------------------------------------------------------------

  /** The position of `x` in `xs`: its first occurrence. */
  function IndexOf(xs: seq<string>, x: string): (i: nat)
    requires x in xs
    ensures i < |xs| && xs[i] == x
    ensures forall j :: 0 <= j < i ==> xs[j] != x
  {
    if xs[0] == x then 0 else 1 + IndexOf(xs[1..], x)
  }

  predicate Distinct(xs: seq<string>) {
    forall i, j :: 0 <= i < j < |xs| ==> xs[i] != xs[j]
  }

  /** Every element of `xs` is in `roles`, and they come in `roles` order (so
      each at most once). */
  predicate InOrderOf(xs: seq<string>, roles: seq<string>) {
    && (forall k :: 0 <= k < |xs| ==> xs[k] in roles)
    && (forall i, j :: 0 <= i < j < |xs| ==> IndexOf(roles, xs[i]) < IndexOf(roles, xs[j]))
  }

  /** The elements of `roles` that are in `keep`, in `roles` order. */
  function Select(roles: seq<string>, keep: set<string>): (out: seq<string>)
    ensures forall x :: x in out <==> x in roles && x in keep
    decreases |roles|
  {
    if |roles| == 0 then []
    else if roles[0] in keep then [roles[0]] + Select(roles[1..], keep)
    else Select(roles[1..], keep)
  }

  /** Past the head of a list, positions shift by one. */
  lemma IndexOfTail(xs: seq<string>, x: string)
    requires |xs| > 0 && x in xs[1..] && x != xs[0]
    ensures IndexOf(xs, x) == 1 + IndexOf(xs[1..], x)
  {
  }

  /** Selecting from a list without repeats keeps the list's order. */
  lemma {:induction false} SelectKeepsOrder(roles: seq<string>, keep: set<string>)
    requires Distinct(roles)
    ensures forall i, j :: 0 <= i < j < |Select(roles, keep)| ==>
      IndexOf(roles, Select(roles, keep)[i]) < IndexOf(roles, Select(roles, keep)[j])
    decreases |roles|
  {
    if |roles| > 0 {
      var tail := roles[1..];
      var out := Select(roles, keep);
      var rest := Select(tail, keep);
      SelectKeepsOrder(tail, keep);
      forall k | 0 <= k < |rest|
        ensures IndexOf(roles, rest[k]) == 1 + IndexOf(tail, rest[k])
      {
        assert rest[k] in tail;
        assert rest[k] != roles[0];
        IndexOfTail(roles, rest[k]);
      }
      if roles[0] in keep {
        assert out == [roles[0]] + rest;
        forall i, j | 0 <= i < j < |out|
          ensures IndexOf(roles, out[i]) < IndexOf(roles, out[j])
        {
          assert out[j] == rest[j - 1];
          if i > 0 {
            assert out[i] == rest[i - 1];
          }
        }
      } else {
        assert out == rest;
      }
    }
  }

  /** The roles that answer in stage 3: those of the roster that the detector
      returned, in roster order; none when it returned nothing. */
  function Responders(roles: seq<string>, detected: set<string>): (rs: seq<string>)
    ensures forall x :: x in rs <==> x in roles && x in detected
    ensures Distinct(roles) ==> InOrderOf(rs, roles)
  {
    var rs := if detected == {} then [] else Select(roles, detected);
    if Distinct(roles) then SelectKeepsOrder(roles, detected); rs else rs
  }

  /** A list in roster order has no repeats. */
  lemma InOrderDistinct(xs: seq<string>, roles: seq<string>)
    requires InOrderOf(xs, roles)
    ensures Distinct(xs)
  {
  }

  /** A list without repeats has as many elements as its set of elements. */
  lemma {:induction false} DistinctCount(xs: seq<string>)
    requires Distinct(xs)
    ensures |set x | x in xs| == |xs|
    decreases |xs|
  {
    if |xs| > 0 {
      DistinctCount(xs[1..]);
      assert (set x | x in xs) == {xs[0]} + (set x | x in xs[1..]);
      assert xs[0] !in (set x | x in xs[1..]);
    }
  }

  /** Stage 3's text: the formatted answers, or a fixed note when nobody answered. */
  const NoResponses: string := "No responses required."

  function Stage3Text(rs: seq<Record>): (t: string)
    ensures t == NoResponses <==> |rs| == 0
    ensures |rs| > 0 ==> t == FormatStage2(rs)
  {
    if |rs| > 0 then
      assert Block(rs[0])[0] == '#';
      AbsentCharNotContained(NoResponses, Block(rs[0]), '#');
      FormatStage2(rs)
    else NoResponses
  }

  // ---------------------------------------------------------------------
  // The review
  // ---------------------------------------------------------------------

  /** The four record lists and the CEO's synthesis, as `review_document` returns them. */
  datatype Review = Review(stage1: seq<Record>, stage2: seq<Record>, stage3: seq<Record>, synthesis: string)

  /** The calls of a review, stage by stage. */
  datatype Log = Log(stage1: seq<Call>, stage2: seq<Call>, stage3: seq<Call>, synthesis: Call)

  /** A review and the calls that produced it. */
  datatype Run = Run(review: Review, log: Log)

  /** How a council words its four requests: stage 1 from a role; stage 2
      from a role and the stage-1 text; stage 3 from a role, the stage-1 text
      and the questions for that role; stage 4 from the three stage texts. */
  datatype Prompter = Prompter(
    stage1: string -> string,
    stage2: (string, string) -> string,
    stage3: (string, string, string) -> string,
    stage4: (string, string, string) -> string)

  /** The prompts of a council with templates `t` and settings `s` that reviews
      `doc`. */
  function Prompting(t: Templates, s: Settings, doc: string): Prompter {
    Prompter(
      role => Stage1Prompt(t, s, doc, role),
      (role, stage1Text) => Stage2Prompt(t, s, role, stage1Text),
      (role, stage1Text, questions) => Stage3Prompt(t, s, role, stage1Text, questions),
      (stage1Text, stage2Text, stage3Text) => Stage4Prompt(t, s, doc, stage1Text, stage2Text, stage3Text))
  }

  /** The text functions the pipeline applies to the records of a stage:
      the stage-1, stage-2 and stage-3 texts, the detector that picks who
      answers in stage 3, and the questions put to one role. */
  datatype Texts = Texts(
    stage1Text: seq<Record> -> string,
    stage2Text: seq<Record> -> string,
    stage3Text: seq<Record> -> string,
    detect: seq<Record> -> set<string>,
    questionsFor: (seq<Record>, string) -> string)

  /** The text functions of `prompts.py` and of `review_document`. */
  function Standard(): Texts {
    Texts(FormatStage1, FormatStage2, Stage3Text, ExecutivesWithQuestions, ExtractDirectedQuestions)
  }

  /** Stage 3: each role of the roster that was detected, in roster order,
      answers the questions put to it (`questions(role)`), with the stage-1
      reviews as background. */
  function Stage3Round(roles: seq<string>, p: Prompter, model: string, stage1Text: string,
                       detected: set<string>, questions: string -> string, query: Oracle): (round: Round)
    ensures forall x :: x in RoleNames(round.records) <==> x in roles && x in detected
    ensures Distinct(roles) ==> InOrderOf(RoleNames(round.records), roles)
    ensures |round.calls| == |round.records|
    ensures forall k :: 0 <= k < |round.records| ==>
      var role := RoleNames(round.records)[k];
      && round.calls[k] == Call(p.stage3(role, stage1Text, questions(role)), model, Stage3Temperature)
      && round.records[k].response == Some(query(round.calls[k]))
  {
    var responders := Responders(roles, detected);
    var round := AskEach(query, responders, role => p.stage3(role, stage1Text, questions(role)), model, Stage3Temperature);
    assert RoleNames(round.records) == responders;
    round
  }

  /** The calls of a review in the order they were made: the three rounds,
      then the synthesis call. */
  function Calls(log: Log): seq<Call> {
    log.stage1 + log.stage2 + log.stage3 + [log.synthesis]
  }

  /** The four stages of `review_document` for a roster, the prompts `p`, the
      executives' model and the CEO's model. */
  function Pipeline(roles: seq<string>, p: Prompter, x: Texts, executiveModel: string, ceoModel: string, query: Oracle): (run: Run)
    // stages 1 and 2: one record per role, in roster order
    ensures RoleNames(run.review.stage1) == roles && RoleNames(run.review.stage2) == roles
    // stage 3: exactly the detected roles of the roster, in roster order
    ensures forall r :: r in RoleNames(run.review.stage3) <==> r in roles && r in x.detect(run.review.stage2)
    ensures Distinct(roles) ==> InOrderOf(RoleNames(run.review.stage3), roles)
    // a call per role, a call per role, one per stage-3 record, one synthesis
    ensures |run.review.stage1| == |roles| && |run.review.stage2| == |roles|
    ensures |run.log.stage1| == |roles| && |run.log.stage2| == |roles| && |run.log.stage3| == |run.review.stage3|
    ensures |Calls(run.log)| == 2 * |roles| + |run.review.stage3| + 1
  {
    var round1 := AskEach(query, roles, p.stage1, executiveModel, Stage1Temperature);
    var stage1Text := x.stage1Text(round1.records);
    var round2 := AskEach(query, roles, role => p.stage2(role, stage1Text), executiveModel, Stage2Temperature);
    var round3 := Stage3Round(roles, p, executiveModel, stage1Text, x.detect(round2.records),
      role => x.questionsFor(round2.records, role), query);
    var final := Call(p.stage4(stage1Text, x.stage2Text(round2.records), x.stage3Text(round3.records)), ceoModel, Stage4Temperature);
    Run(Review(round1.records, round2.records, round3.records, query(final)),
        Log(round1.calls, round2.calls, round3.calls, final))
  }

  /** `review_document` on a document already read, with settings already
      loaded, for a council whose roster is `roles` (the shipped council's is
      `Roles`). */
  function ReviewDocument(roles: seq<string>, t: Templates, s: Settings, doc: string, query: Oracle): Run {
    Pipeline(roles, Prompting(t, s, doc), Standard(), s.executiveModel, s.ceoModel, query)
  }

  /** Stage 1 asks each role of the roster, in order, with the executives'
      model at 0.7, and records each reply under its role. */
  lemma StageOneCalls(roles: seq<string>, p: Prompter, x: Texts, executiveModel: string, ceoModel: string, query: Oracle)
    ensures var run := Pipeline(roles, p, x, executiveModel, ceoModel, query);
      forall i :: 0 <= i < |roles| ==>
        && run.log.stage1[i] == Call(p.stage1(roles[i]), executiveModel, Stage1Temperature)
        && run.review.stage1[i].response == Some(query(run.log.stage1[i]))
  {
  }

  /** Stage 2 asks each role again, in order, at 0.6, with the stage-1 text
      in the prompt. */
  lemma StageTwoCalls(roles: seq<string>, p: Prompter, x: Texts, executiveModel: string, ceoModel: string, query: Oracle)
    ensures var run := Pipeline(roles, p, x, executiveModel, ceoModel, query);
      forall i :: 0 <= i < |roles| ==>
        && run.log.stage2[i] == Call(p.stage2(roles[i], x.stage1Text(run.review.stage1)), executiveModel, Stage2Temperature)
        && run.review.stage2[i].response == Some(query(run.log.stage2[i]))
  {
  }

  /** Stage 3 asks each answering role at 0.7 with the stage-1 text (not the
      stage-2 text) and the questions put to that role. */
  lemma StageThreeCalls(roles: seq<string>, p: Prompter, x: Texts, executiveModel: string, ceoModel: string, query: Oracle)
    ensures var run := Pipeline(roles, p, x, executiveModel, ceoModel, query);
      forall k :: 0 <= k < |run.review.stage3| ==>
        var role := RoleNames(run.review.stage3)[k];
        && run.log.stage3[k] == Call(p.stage3(role, x.stage1Text(run.review.stage1), x.questionsFor(run.review.stage2, role)), executiveModel, Stage3Temperature)
        && run.review.stage3[k].response == Some(query(run.log.stage3[k]))
  {
  }

  /** The last call is the CEO's: the CEO's model at 0.7, with the three stage
      texts, and its reply is the synthesis. */
  lemma SynthesisCall(roles: seq<string>, p: Prompter, x: Texts, executiveModel: string, ceoModel: string, query: Oracle)
    ensures var run := Pipeline(roles, p, x, executiveModel, ceoModel, query);
      && run.log.synthesis == Call(p.stage4(x.stage1Text(run.review.stage1), x.stage2Text(run.review.stage2), x.stage3Text(run.review.stage3)), ceoModel, Stage4Temperature)
      && run.review.synthesis == query(run.log.synthesis)
  {
  }

  /** The stage-1 calls `review_document` makes with templates `t` and
      settings `s`: the stage-1 template filled for each role, sent to the
      executives' model. */
  lemma ReviewStageOneCalls(roles: seq<string>, t: Templates, s: Settings, doc: string, query: Oracle)
    ensures var run := ReviewDocument(roles, t, s, doc, query);
      forall i :: 0 <= i < |roles| ==>
        run.log.stage1[i] == Call(Stage1Prompt(t, s, doc, roles[i]), s.executiveModel, Stage1Temperature)
  {
    StageOneCalls(roles, Prompting(t, s, doc), Standard(), s.executiveModel, s.ceoModel, query);
  }

  /** The stage-2 calls: the stage-2 template filled with the role and the
      formatted stage-1 reviews. */
  lemma ReviewStageTwoCalls(roles: seq<string>, t: Templates, s: Settings, doc: string, query: Oracle)
    ensures var run := ReviewDocument(roles, t, s, doc, query);
      forall i :: 0 <= i < |roles| ==>
        run.log.stage2[i] == Call(Stage2Prompt(t, s, roles[i], FormatStage1(run.review.stage1)), s.executiveModel, Stage2Temperature)
  {
    StageTwoCalls(roles, Prompting(t, s, doc), Standard(), s.executiveModel, s.ceoModel, query);
  }

  /** The stage-3 calls: the stage-3 template filled with the role, the
      formatted stage-1 reviews and the questions put to that role in stage 2. */
  lemma ReviewStageThreeCalls(roles: seq<string>, t: Templates, s: Settings, doc: string, query: Oracle)
    ensures var run := ReviewDocument(roles, t, s, doc, query);
      forall k :: 0 <= k < |run.review.stage3| ==>
        run.log.stage3[k] == Call(Stage3Prompt(t, s, RoleNames(run.review.stage3)[k], FormatStage1(run.review.stage1),
                                               ExtractDirectedQuestions(run.review.stage2, RoleNames(run.review.stage3)[k])),
                                  s.executiveModel, Stage3Temperature)
  {
    StageThreeCalls(roles, Prompting(t, s, doc), Standard(), s.executiveModel, s.ceoModel, query);
  }

  /** The synthesis call: the stage-4 template filled with the document and the
      three stages' texts, sent to the CEO's model. */
  lemma ReviewSynthesisCall(roles: seq<string>, t: Templates, s: Settings, doc: string, query: Oracle)
    ensures var run := ReviewDocument(roles, t, s, doc, query);
      run.log.synthesis == Call(Stage4Prompt(t, s, doc, FormatStage1(run.review.stage1), FormatStage2(run.review.stage2),
                                             Stage3Text(run.review.stage3)), s.ceoModel, Stage4Temperature)
  {
    SynthesisCall(roles, Prompting(t, s, doc), Standard(), s.executiveModel, s.ceoModel, query);
  }

  /** Two executives with the same instructions (none, by default) are sent
      one and the same stage-2 request. */
  lemma DefaultStageTwoCallsAgree(t: Templates, s: Settings, doc: string, query: Oracle, i: int, j: int)
    requires 0 <= i < |Roles| && 0 <= j < |Roles|
    requires Instructions(s, Roles[i]) == Instructions(s, Roles[j])
    ensures var run := ReviewDocument(Roles, t, s, doc, query);
      run.log.stage2[i] == run.log.stage2[j]
  {
    ReviewStageTwoCalls(Roles, t, s, doc, query);
    var run := ReviewDocument(Roles, t, s, doc, query);
    StageTwoPromptIgnoresRole(t, s, Roles[i], Roles[j], FormatStage1(run.review.stage1));
  }

  /** With a roster without repeats, a review makes a call per role in each
      of stages 1 and 2, one per roster role the detector returned, and the
      synthesis call. */
  lemma CallCount(roles: seq<string>, p: Prompter, x: Texts, executiveModel: string, ceoModel: string, query: Oracle)
    requires Distinct(roles)
    ensures var run := Pipeline(roles, p, x, executiveModel, ceoModel, query);
      |Calls(run.log)| == 2 * |roles| + |(set r | r in roles) * x.detect(run.review.stage2)| + 1
  {
    var run := Pipeline(roles, p, x, executiveModel, ceoModel, query);
    SelectionCount(RoleNames(run.review.stage3), roles, x.detect(run.review.stage2));
  }

  /** A selection from a roster, in roster order, has one element per roster
      member that was picked. */
  lemma SelectionCount(names: seq<string>, roles: seq<string>, picked: set<string>)
    requires InOrderOf(names, roles)
    requires forall r :: r in names <==> r in roles && r in picked
    ensures |names| == |(set r | r in roles) * picked|
  {
    InOrderDistinct(names, roles);
    DistinctCount(names);
    assert (set r | r in names) == (set r | r in roles) * picked;
  }

  /** When every role the detector can return is on the roster, stage 3 is
      answered by exactly the detected roles, and a review makes a call per
      role in each of stages 1 and 2, one per detected role and the synthesis
      call. */
  lemma CoveringRosterCallCount(roles: seq<string>, p: Prompter, x: Texts, executiveModel: string, ceoModel: string, query: Oracle)
    requires Distinct(roles)
    requires forall rs, r :: r in x.detect(rs) ==> r in roles
    ensures var run := Pipeline(roles, p, x, executiveModel, ceoModel, query);
      && (forall r :: r in RoleNames(run.review.stage3) <==> r in x.detect(run.review.stage2))
      && |Calls(run.log)| == 2 * |roles| + |x.detect(run.review.stage2)| + 1
  {
    var run := Pipeline(roles, p, x, executiveModel, ceoModel, query);
    var detected := x.detect(run.review.stage2);
    CoveredSelection(roles, detected);
    CallCount(roles, p, x, executiveModel, ceoModel, query);
  }

  /** Picking from a roster the members of a set that lies within it picks the whole set. */
  lemma CoveredSelection(roles: seq<string>, picked: set<string>)
    requires forall r :: r in picked ==> r in roles
    ensures (set r | r in roles) * picked == picked
  {
  }

  /** The shipped roster has no repeats, and the detector only returns roles
      on it. */
  lemma ShippedRosterCoversDetector()
    ensures Distinct(Roles)
    ensures forall rs, r :: r in Standard().detect(rs) ==> r in Roles
  {
    assert Roles == AllRoles;
  }

  /** For the shipped council, stage 3 is answered by exactly the roles
      `get_executives_with_questions` returns for the stage-2 records, and a
      review makes nine calls plus one per such role; it skips stage 3 when
      none is detected. */
  lemma ShippedRosterCallCount(t: Templates, s: Settings, doc: string, query: Oracle)
    ensures var run := ReviewDocument(Roles, t, s, doc, query);
      && (forall r :: r in RoleNames(run.review.stage3) <==> r in ExecutivesWithQuestions(run.review.stage2))
      && |Calls(run.log)| == 9 + |ExecutivesWithQuestions(run.review.stage2)|
  {
    ShippedRosterCoversDetector();
    CoveringRosterCallCount(Roles, Prompting(t, s, doc), Standard(), s.executiveModel, s.ceoModel, query);
  }

  /** A provider that fails on every request gives a client whose every
      reply is an "ERROR: " text. */
  lemma FailingProviderAnswersErrors(provider: LlmClient.Provider)
    requires forall prompt, model, temperature :: provider(prompt, model, temperature).Failure?
    ensures forall c: Call :: IsErrorText(Client(provider)(c))
  {
    forall c: Call
      ensures IsErrorText(Client(provider)(c))
    {
      var r := LlmClient.Query(provider, c.prompt, c.model, c.temperature);
      assert provider(c.prompt, LlmClient.RewriteModelId(c.model), c.temperature).Failure?;
    }
  }

  /** Every record of a stage holds a response, and each response satisfies `ok`. */
  predicate Answered(rs: seq<Record>, ok: string -> bool) {
    forall i :: 0 <= i < |rs| ==> rs[i].response.Some? && ok(rs[i].response.value)
  }

  /** Replies are stored as they come: whatever every reply of the oracle
      satisfies, so does every response of every stage and the synthesis. */
  lemma RepliesAreRecorded(roles: seq<string>, p: Prompter, x: Texts, executiveModel: string, ceoModel: string,
                           query: Oracle, ok: string -> bool)
    requires forall c: Call :: ok(query(c))
    ensures var run := Pipeline(roles, p, x, executiveModel, ceoModel, query);
      && Answered(run.review.stage1, ok) && Answered(run.review.stage2, ok) && Answered(run.review.stage3, ok)
      && ok(run.review.synthesis)
  {
    var run := Pipeline(roles, p, x, executiveModel, ceoModel, query);
    forall i | 0 <= i < |run.review.stage1|
      ensures run.review.stage1[i].response.Some? && ok(run.review.stage1[i].response.value)
    {
      StageOneCalls(roles, p, x, executiveModel, ceoModel, query);
      var c := run.log.stage1[i];
      assert run.review.stage1[i].response == Some(query(c));
      assert ok(query(c));
    }
    forall i | 0 <= i < |run.review.stage2|
      ensures run.review.stage2[i].response.Some? && ok(run.review.stage2[i].response.value)
    {
      StageTwoCalls(roles, p, x, executiveModel, ceoModel, query);
      var c := run.log.stage2[i];
      assert run.review.stage2[i].response == Some(query(c));
      assert ok(query(c));
    }
    forall k | 0 <= k < |run.review.stage3|
      ensures run.review.stage3[k].response.Some? && ok(run.review.stage3[k].response.value)
    {
      StageThreeCalls(roles, p, x, executiveModel, ceoModel, query);
      var c := run.log.stage3[k];
      assert run.review.stage3[k].response == Some(query(c));
      assert ok(query(c));
    }
    SynthesisCall(roles, p, x, executiveModel, ceoModel, query);
    assert ok(query(run.log.synthesis));
  }

  /** A reply that reports a failure. */
  predicate IsErrorText(r: string) {
    StartsWith(r, "ERROR: ")
  }

  /** A provider that fails on every request does not stop a review of the
      shipped council: every stage still runs, each of the four executives
      answers in stages 1 and 2, and every response and the synthesis is an
      "ERROR: " text. */
  lemma FailuresDoNotAbort(t: Templates, s: Settings, doc: string, provider: LlmClient.Provider)
    requires forall prompt, model, temperature :: provider(prompt, model, temperature).Failure?
    ensures var run := ReviewDocument(Roles, t, s, doc, Client(provider));
      && RoleNames(run.review.stage1) == Roles && RoleNames(run.review.stage2) == Roles
      && Answered(run.review.stage1, IsErrorText) && Answered(run.review.stage2, IsErrorText)
      && Answered(run.review.stage3, IsErrorText) && IsErrorText(run.review.synthesis)
  {
    FailingProviderAnswersErrors(provider);
    RepliesAreRecorded(Roles, Prompting(t, s, doc), Standard(), s.executiveModel, s.ceoModel, Client(provider), IsErrorText);
  }
}

=== FILE: llm_client.dfy ===
/** The part of the OpenRouter client (cxo_council/llm_client.py) that the
    council depends on: how a configured model id becomes the id sent to
    OpenRouter, and the rule that a failed request comes back as text instead
    of an exception. The request itself is an uninterpreted provider. */
module LlmClient {
  import opened Text

  // ---------------------------------------------------------------------
  // Model ids
  // ---------------------------------------------------------------------

  /** The second step of the rewrite: an id that starts with "anthropic:" has
      every "anthropic:" turned into "anthropic/"; any other id is unchanged. */
  function AnthropicToSlash(id: string): string {
    if StartsWith(id, "anthropic:") then ReplaceAll(id, "anthropic:", "anthropic/") else id
  }

  /** The id sent to OpenRouter: every "openrouter:" is removed, and then the
      anthropic rewrite applies to what is left. */
  function RewriteModelId(model: string): string {
    AnthropicToSlash(ReplaceAll(model, "openrouter:", ""))
  }

  /** An id with no "openrouter:" anywhere and no "anthropic:" at the front is
      sent unchanged. */
  lemma RewritePassesThrough(model: string)
    requires !Contains(model, "openrouter:")
    requires !StartsWith(model, "anthropic:")
    ensures RewriteModelId(model) == model
  {
  }

  /** The "openrouter:" removal deletes every non-overlapping occurrence, left to
      right: what is left is the pieces between them, glued together, and the
      anthropic check looks at that. */
  lemma RewriteRemovesEveryOpenRouter(model: string)
    ensures RewriteModelId(model) == AnthropicToSlash(Join(Split(model, "openrouter:"), ""))
  {
    ReplaceIsSplitJoin(model, "openrouter:", "");
  }

  /** Removing a single "openrouter:" glues the pieces around it together,
      and the glued id is sent as it is when it does not start with
      "anthropic:", even if the gluing forms a new "openrouter:". */
  lemma RewriteJoinsPieces(front: string, back: string)
    requires forall j :: 0 <= j < |front| ==> !OccursAt(front + "openrouter:" + back, "openrouter:", j)
    requires !Contains(back, "openrouter:")
    requires !StartsWith(front + back, "anthropic:")
    ensures RewriteModelId(front + "openrouter:" + back) == front + back
  {
    RemoveSingle(front, "openrouter:", back);
  }

  /** "openopenrouter:router:x" is sent as "openrouter:x": the removal looks
      only at the configured id, so the pieces around the removed
      "openrouter:" join into a new one.

      The two pieces are parameters pinned by `requires` here and in the two
      helpers below: with literal arguments throughout, the verifier would
      evaluate the rewrite of the whole literal id instead of reasoning about
      its parts. */
  lemma RemovalCanFormOpenRouter(front: string, back: string)
    requires front == "open" && back == "router:x"
    ensures RewriteModelId(front + "openrouter:" + back) == front + back
    ensures Contains(RewriteModelId(front + "openrouter:" + back), "openrouter:")
  {
    NoEarlierOpenRouter(front, back);
    GluedIsOpenRouter(front, back);
    RewriteJoinsPieces(front, back);
  }

  /** "openrouter:" does not occur inside "open" + "openrouter:" + anything
      before the inner one. */
  lemma NoEarlierOpenRouter(front: string, back: string)
    requires front == "open"
    ensures forall j :: 0 <= j < |front| ==> !OccursAt(front + "openrouter:" + back, "openrouter:", j)
  {
    var pat := "openrouter:";
    forall j | 0 <= j < |front|
      ensures !OccursAt(front + pat + back, pat, j)
    {
      assert (front + pat + back)[j + 4] == pat[j];
      assert pat[j] != pat[4];
    }
  }

  /** "open" glued to "router:x" starts with "openrouter:", not "anthropic:". */
  lemma GluedIsOpenRouter(front: string, back: string)
    requires front == "open" && back == "router:x"
    ensures !Contains(back, "openrouter:")
    ensures !StartsWith(front + back, "anthropic:")
    ensures OccursAt(front + back, "openrouter:", 0)
  {
    var id := front + back;
    assert id[0] != "anthropic:"[0];
    assert id[..11] == "openrouter:";
  }

  /** No rewritten id starts with "anthropic:": the prefix is always turned into
      "anthropic/". */
  lemma RewriteNeverLeavesAnthropicColon(model: string)
    ensures !StartsWith(RewriteModelId(model), "anthropic:")
  {
    var id := ReplaceAll(model, "openrouter:", "");
    if StartsWith(id, "anthropic:") {
      ReplaceAtStart(id, "anthropic:", "anthropic/");
      var r := RewriteModelId(model);
      assert r[..10] == "anthropic/";
      assert r[9] != "anthropic:"[9];
    }
  }

  /** An "openrouter:" prefix is dropped, and nothing else happens to an id
      that has no other "openrouter:" and no "anthropic:" behind the prefix. */
  lemma RewriteOpenRouterPrefixed(rest: string)
    requires !Contains(rest, "openrouter:")
    requires !StartsWith(rest, "anthropic:")
    ensures RewriteModelId("openrouter:" + rest) == rest
  {
    var m := "openrouter:" + rest;
    assert StartsWith(m, "openrouter:");
    ReplaceAtStart(m, "openrouter:", "");
    assert m[|"openrouter:"|..] == rest;
  }

  /** An "anthropic:" prefix becomes "anthropic/", and so does every later
      "anthropic:"; when there is none later, the rest is sent unchanged. */
  lemma RewriteAnthropicPrefixed(rest: string)
    requires !Contains("anthropic:" + rest, "openrouter:")
    ensures RewriteModelId("anthropic:" + rest) == "anthropic/" + ReplaceAll(rest, "anthropic:", "anthropic/")
    ensures !Contains(rest, "anthropic:") ==> RewriteModelId("anthropic:" + rest) == "anthropic/" + rest
  {
    var m := "anthropic:" + rest;
    assert StartsWith(m, "anthropic:");
    ReplaceAtStart(m, "anthropic:", "anthropic/");
    assert m[|"anthropic:"|..] == rest;
  }

  /** The anthropic rewrite only fires at the front: an id that merely contains
      "anthropic:" later on is left alone. */
  lemma AnthropicOnlyAtFront()
    ensures RewriteModelId("x-anthropic:y") == "x-anthropic:y"
  {
    var m := "x-anthropic:y";
    assert !Contains(m, "openrouter:") by {
      AbsentCharNotContained(m, "openrouter:", 'u');
    }
    assert m[0] != "anthropic:"[0];
  }

  /** Both prefixes at once: "openrouter:anthropic:" followed by a colon-free
      rest is sent as "anthropic/" and the rest (so "openrouter:anthropic:x"
      becomes "anthropic/x"). */
  lemma RewriteBothPrefixes(rest: string)
    requires ':' !in rest
    ensures RewriteModelId("openrouter:anthropic:" + rest) == "anthropic/" + rest
  {
    var inner := "anthropic:" + rest;
    var m := "openrouter:" + inner;
    assert m == "openrouter:anthropic:" + rest;
    assert StartsWith(m, "openrouter:");
    ReplaceAtStart(m, "openrouter:", "");
    assert m[|"openrouter:"|..] == inner;
    assert forall k :: 10 <= k < |inner| ==> inner[k] == rest[k - 10];
    LastCharTooEarly(inner, "openrouter:");
    AbsentCharNotContained(rest, "anthropic:", ':');
    RewriteAnthropicPrefixed(rest);
  }

  lemma OpenRouterThenAnthropic()
    ensures RewriteModelId("openrouter:anthropic:x") == "anthropic/x"
  {
    RewriteBothPrefixes("x");
    assert "openrouter:anthropic:" + "x" == "openrouter:anthropic:x";
    assert "anthropic/" + "x" == "anthropic/x";
  }

  // ---------------------------------------------------------------------
  // Queries
  // ---------------------------------------------------------------------

  /** What one OpenRouter request produced: the first choice's message content,
      or the text of whatever went wrong (HTTP status, timeout, bad JSON, a
      missing field). */
  datatype Reply = Completion(content: string) | Failure(message: string)

  /** The OpenRouter request as a function of prompt, rewritten model id and
      temperature in tenths. */
  type Provider = (string, string, nat) -> Reply

  /** `LLMClient.query`: never fails. The provider sees the rewritten model id; a
      completion comes back as its content, and a failure as text that starts
      with "ERROR: " and carries the failure's message after that prefix. */
  function Query(provider: Provider, prompt: string, model: string, temperature: nat): string {
    match provider(prompt, RewriteModelId(model), temperature)
    case Completion(content) => content
    case Failure(message) => "ERROR: " + message
  }

  /** A caller can tell a failed request from an answer only by the "ERROR: "
      prefix: the reply starts with it exactly when the request failed or the
      model's own answer happens to start with it. */
  lemma ErrorPrefixIff(provider: Provider, prompt: string, model: string, temperature: nat)
    ensures var reply := provider(prompt, RewriteModelId(model), temperature);
      StartsWith(Query(provider, prompt, model, temperature), "ERROR: ") <==>
        reply.Failure? || StartsWith(reply.content, "ERROR: ")
  {
  }
}

=== FILE: options.dfy ===
/** An optional value: a dictionary key that may be missing, a line that may
    not match. */
module Options {

  datatype Option<+T> = None | Some(value: T) {

    /** The carried value, or `default` when there is none (Python's `dict.get(key, default)`). */
    function GetOr(default: T): T
    {
      match this
      case Some(v) => v
      case None => default
    }
  }
}

=== FILE: prompts.dfy ===
/** The prompt side of the council (cxo_council/prompts.py): the four stage
    templates, the formatters that turn a stage's records into text, and the
    directed-question router that decides who answers in stage 3 and what
    they are asked. */
module Prompts {
  import opened Options
  import opened Text

  // ---------------------------------------------------------------------
  // Templates
  // ---------------------------------------------------------------------

  /** The four stage templates of `prompts.py`. Their text is not modelled: the
      pipeline takes them as a parameter, so what is proved about it holds
      whatever their wording. */
  datatype Templates = Templates(stage1: string, stage2: string, stage3: string, stage4: string)

  // ---------------------------------------------------------------------
  // Records and formatting
  // ---------------------------------------------------------------------

  /** One stage output: the `{"role": ..., "response": ...}` dictionary the code
      passes around. Either key may be missing. */
  datatype Record = Record(role: Option<string>, response: Option<string>)

  /** A record built by the council itself, with both keys present. */
  function Answer(role: string, response: string): Record {
    Record(Some(role), Some(response))
  }

  /** The markdown block for one record; a missing role reads "Executive" and a
      missing response reads as empty. */
  function Block(r: Record): string {
    "### " + r.role.GetOr("Executive") + "\n" + r.response.GetOr("") + "\n"
  }

  function Blocks(rs: seq<Record>): seq<string> {
    seq(|rs|, i requires 0 <= i < |rs| => Block(rs[i]))
  }

  const Stage1Separator: string := "\n---\n"
  const Stage2Separator: string := "\n"

  /** The blocks of a record list joined by `sep`: empty exactly for no records,
      a single record's block alone, and every record's block present. */
  function FormatWith(rs: seq<Record>, sep: string): (r: string)
    ensures r == "" <==> |rs| == 0
    ensures |rs| == 1 ==> r == Block(rs[0])
    ensures forall i :: 0 <= i < |rs| ==> Contains(r, Block(rs[i]))
  {
    var bs := Blocks(rs);
    var r := Join(bs, sep);
    assert forall i :: 0 <= i < |rs| ==> Contains(r, Block(rs[i])) by {
      forall i | 0 <= i < |rs|
        ensures Contains(r, Block(rs[i]))
      {
        JoinContainsEach(bs, sep, i);
      }
    }
    if |rs| == 0 then r
    else
      JoinStartsWithFirst(bs, sep);
      r
  }

  /** `format_stage1_responses`: the blocks separated by horizontal rules. */
  function FormatStage1(rs: seq<Record>): (r: string)
    ensures r == "" <==> |rs| == 0
    ensures |rs| == 1 ==> r == Block(rs[0])
    ensures forall i :: 0 <= i < |rs| ==> Contains(r, Block(rs[i]))
  {
    FormatWith(rs, Stage1Separator)
  }

  /** `format_stage2_responses`: the same blocks separated by a line break. */
  function FormatStage2(rs: seq<Record>): (r: string)
    ensures r == "" <==> |rs| == 0
    ensures |rs| == 1 ==> r == Block(rs[0])
    ensures forall i :: 0 <= i < |rs| ==> Contains(r, Block(rs[i]))
  {
    FormatWith(rs, Stage2Separator)
  }

  /** Formatting keeps record order: the text of a concatenation is the two
      texts with one separator between them. */
  lemma FormatConcat(a: seq<Record>, b: seq<Record>, sep: string)
    requires |a| > 0 && |b| > 0
    ensures FormatWith(a + b, sep) == FormatWith(a, sep) + sep + FormatWith(b, sep)
  {
    assert Blocks(a + b) == Blocks(a) + Blocks(b);
    JoinConcat(Blocks(a), Blocks(b), sep);
  }

  /** Stage-1 text is built block by block, in record order, with "\n---\n" between. */
  lemma FormatStage1Concat(a: seq<Record>, b: seq<Record>)
    requires |a| > 0 && |b| > 0
    ensures FormatStage1(a + b) == FormatStage1(a) + "\n---\n" + FormatStage1(b)
  {
    FormatConcat(a, b, Stage1Separator);
  }

  /** Stage-2 text is built block by block, in record order, with "\n" between. */
  lemma FormatStage2Concat(a: seq<Record>, b: seq<Record>)
    requires |a| > 0 && |b| > 0
    ensures FormatStage2(a + b) == FormatStage2(a) + "\n" + FormatStage2(b)
  {
    FormatConcat(a, b, Stage2Separator);
  }

  /** A record without a role is shown as "Executive", one without a response
      as an empty body, whatever the other key holds. */
  lemma MissingKeysDefault(r: Record)
    ensures FormatStage1([Record(None, r.response)]) == "### Executive\n" + r.response.GetOr("") + "\n"
    ensures FormatStage2([Record(None, r.response)]) == "### Executive\n" + r.response.GetOr("") + "\n"
    ensures FormatStage1([Record(r.role, None)]) == "### " + r.role.GetOr("Executive") + "\n\n"
    ensures FormatStage2([Record(r.role, None)]) == "### " + r.role.GetOr("Executive") + "\n\n"
  {
  }

  // ---------------------------------------------------------------------
  // Extracting the questions put to one role
  // ---------------------------------------------------------------------

  /** The phrases that address `target` on a line, in priority order. */
  function TargetPatterns(target: string): seq<string> {
    ["Question to " + target + ":", "Question for " + target + ":", "To " + target + ":", "@" + target + ":"]
  }

  /** The position of the first pattern whose upper-cased form occurs in
      `upperLine`, or `|ps|` when none does. */
  function FirstMatching(upperLine: string, ps: seq<string>): (k: nat)
    ensures k <= |ps|
    ensures k < |ps| ==> Contains(upperLine, Upper(ps[k]))
    ensures forall j :: 0 <= j < k ==> !Contains(upperLine, Upper(ps[j]))
    decreases |ps|
  {
    if |ps| == 0 then 0
    else if Contains(upperLine, Upper(ps[0])) then 0
    else 1 + FirstMatching(upperLine, ps[1..])
  }

  /** `at` is the first position at which `pattern` occurs in `line`, ignoring case. */
  predicate FirstCaseBlindAt(line: string, pattern: string, at: int) {
    && OccursAt(Upper(line), Upper(pattern), at)
    && forall j :: 0 <= j < at ==> !OccursAt(Upper(line), Upper(pattern), j)
  }

  /** The question a line puts to the target, if any: the rest of the line
      from the first case-blind occurrence of the highest-priority pattern that
      occurs in it. */
  function QuestionIn(line: string, ps: seq<string>): Option<string> {
    var upper := Upper(line);
    var k := FirstMatching(upper, ps);
    if k == |ps| then None else Some(line[Find(upper, Upper(ps[k]))..])
  }

  /** A line yields a question exactly when some pattern occurs in it (ignoring
      case); the question is then the suffix of the line that starts at the
      first occurrence of the first pattern, in priority order, that occurs. */
  lemma QuestionInSpec(line: string, ps: seq<string>)
    ensures QuestionIn(line, ps).None? <==> forall j :: 0 <= j < |ps| ==> !Contains(Upper(line), Upper(ps[j]))
    ensures QuestionIn(line, ps).Some? ==>
      var q := QuestionIn(line, ps).value;
      && FirstMatching(Upper(line), ps) < |ps|
      && |q| <= |line|
      && q == line[|line| - |q|..]
      && FirstCaseBlindAt(line, ps[FirstMatching(Upper(line), ps)], |line| - |q|)
  {
    var upper := Upper(line);
    var k := FirstMatching(upper, ps);
    if k < |ps| {
      assert Find(upper, Upper(ps[k])) != -1;
    }
  }

  /** Ignoring case, a captured question begins with the pattern that caught it. */
  lemma CapturedStartsWithPattern(line: string, ps: seq<string>)
    requires QuestionIn(line, ps).Some?
    ensures StartsWith(Upper(QuestionIn(line, ps).value), Upper(ps[FirstMatching(Upper(line), ps)]))
  {
    QuestionInSpec(line, ps);
    var q := QuestionIn(line, ps).value;
    var p := Upper(ps[FirstMatching(Upper(line), ps)]);
    var at := |line| - |q|;
    assert q == line[at..|line|];
    UpperSlice(line, at, |line|);
    assert Upper(line)[at..at + |p|] == p;
    assert Upper(q)[..|p|] == Upper(line)[at..at + |p|];
  }

  /** Python's `content.split("\n")`. */
  function Lines(text: string): seq<string> {
    Split(text, "\n")
  }

  /** A captured question with its author's attribution. */
  function Attributed(author: string, question: string): string {
    "From " + author + ": " + question
  }

  /** The attributed questions that `capture` finds in a run of lines, in line
      order; each line gives at most one. */
  function LineQuestions(author: string, lines: seq<string>, capture: string -> Option<string>): (qs: seq<string>)
    ensures |qs| <= |lines|
    ensures |qs| == 0 <==> forall j :: 0 <= j < |lines| ==> capture(lines[j]).None?
    ensures forall k :: 0 <= k < |qs| ==>
      exists j :: 0 <= j < |lines| && capture(lines[j]).Some? && qs[k] == Attributed(author, capture(lines[j]).value)
    ensures forall j :: 0 <= j < |lines| && capture(lines[j]).Some? ==>
      Attributed(author, capture(lines[j]).value) in qs
    decreases |lines|
  {
    if |lines| == 0 then []
    else
      var rest := LineQuestions(author, lines[1..], capture);
      assert forall j :: 1 <= j < |lines| ==> lines[1..][j - 1] == lines[j];
      match capture(lines[0])
      case Some(q) => [Attributed(author, q)] + rest
      case None => rest
  }

  /** The question a line puts to `target`, as a function of the line. */
  function Capture(target: string): string -> Option<string> {
    line => QuestionIn(line, TargetPatterns(target))
  }

  /** The record puts at least one question to `target`. */
  predicate Asks(r: Record, target: string) {
    var lines := Lines(r.response.GetOr(""));
    exists j :: 0 <= j < |lines| && QuestionIn(lines[j], TargetPatterns(target)).Some?
  }

  /** The questions one record puts to `target`, attributed to its author
      (a record without a role is attributed to "Unknown"). */
  function RecordQuestions(r: Record, target: string): (qs: seq<string>)
    ensures |qs| == 0 <==> !Asks(r, target)
    ensures forall k :: 0 <= k < |qs| ==> StartsWith(qs[k], "From " + r.role.GetOr("Unknown") + ": ")
  {
    var author := r.role.GetOr("Unknown");
    var qs := LineQuestions(author, Lines(r.response.GetOr("")), Capture(target));
    assert forall k :: 0 <= k < |qs| ==> StartsWith(qs[k], "From " + author + ": ") by {
      forall k | 0 <= k < |qs|
        ensures StartsWith(qs[k], "From " + author + ": ")
      {
        var lines := Lines(r.response.GetOr(""));
        var j :| 0 <= j < |lines| && Capture(target)(lines[j]).Some?
          && qs[k] == Attributed(author, Capture(target)(lines[j]).value);
        assert qs[k] == ("From " + author + ": ") + Capture(target)(lines[j]).value;
      }
    }
    qs
  }

  /** All questions put to `target`, in record order and, within a record, in
      line order; there are none exactly when no record asks `target` anything. */
  function Questions(rs: seq<Record>, target: string): (qs: seq<string>)
    ensures |qs| == 0 <==> forall i :: 0 <= i < |rs| ==> !Asks(rs[i], target)
    decreases |rs|
  {
    if |rs| == 0 then []
    else
      var first := RecordQuestions(rs[0], target);
      var rest := Questions(rs[1..], target);
      assert (forall i :: 0 <= i < |rs| ==> !Asks(rs[i], target)) <==>
        !Asks(rs[0], target) && forall i :: 0 <= i < |rs[1..]| ==> !Asks(rs[1..][i], target) by {
        assert forall i :: 1 <= i < |rs| ==> rs[1..][i - 1] == rs[i];
      }
      first + rest
  }

  /** Every extracted question carries a "From ..." attribution. */
  lemma {:induction false} QuestionsAttributed(rs: seq<Record>, target: string)
    ensures forall k :: 0 <= k < |Questions(rs, target)| ==> StartsWith(Questions(rs, target)[k], "From ")
    decreases |rs|
  {
    if |rs| > 0 {
      QuestionsAttributed(rs[1..], target);
      var first := RecordQuestions(rs[0], target);
      var rest := Questions(rs[1..], target);
      var qs := Questions(rs, target);
      assert qs == first + rest;
      forall k | 0 <= k < |qs|
        ensures StartsWith(qs[k], "From ")
      {
        if k < |first| {
          assert qs[k] == first[k];
          StartsWithLonger(first[k], "From ", rs[0].role.GetOr("Unknown") + ": ");
        } else {
          assert qs[k] == rest[k - |first|];
        }
      }
    }
  }

  /** Record order is kept: the questions of a concatenation are the questions
      of each part, one after the other. */
  lemma {:induction false} QuestionsConcat(a: seq<Record>, b: seq<Record>, target: string)
    ensures Questions(a + b, target) == Questions(a, target) + Questions(b, target)
    decreases |a|
  {
    if |a| == 0 {
      assert a + b == b;
    } else {
      assert (a + b)[1..] == a[1..] + b;
      QuestionsConcat(a[1..], b, target);
    }
  }

  /** Line order is kept within a record in the same way. */
  lemma {:induction false} LineQuestionsConcat(author: string, a: seq<string>, b: seq<string>, capture: string -> Option<string>)
    ensures LineQuestions(author, a + b, capture) == LineQuestions(author, a, capture) + LineQuestions(author, b, capture)
    decreases |a|
  {
    if |a| == 0 {
      assert a + b == b;
    } else {
      assert (a + b)[1..] == a[1..] + b;
      LineQuestionsConcat(author, a[1..], b, capture);
    }
  }

  /** The reply used when nobody asked the role anything. */
  const NoQuestions: string := "No questions directed to your role."

  /** Text that starts with an attribution is never the no-questions reply. */
  lemma AttributedIsNotSentinel(r: string)
    requires StartsWith(r, "From ")
    ensures r != NoQuestions
  {
    assert r[1] == r[..5][1] == 'r';
    assert NoQuestions[1] == 'o';
  }

  /** `extract_directed_questions`: the questions put to `target`, separated by
      blank lines, or the fixed reply when there are none. */
  function ExtractDirectedQuestions(rs: seq<Record>, target: string): (r: string)
    ensures r != ""
    ensures r == NoQuestions <==> forall i :: 0 <= i < |rs| ==> !Asks(rs[i], target)
    ensures r != NoQuestions ==> StartsWith(r, "From ") && r == Join(Questions(rs, target), "\n\n")
  {
    var qs := Questions(rs, target);
    if |qs| == 0 then NoQuestions
    else
      var r := Join(qs, "\n\n");
      assert StartsWith(r, "From ") by {
        QuestionsAttributed(rs, target);
        JoinStartsWithFirst(qs, "\n\n");
        assert r[..5] == qs[0][..5];
      }
      AttributedIsNotSentinel(r);
      r
  }

  // ---------------------------------------------------------------------
  // Deciding who is asked anything
  // ---------------------------------------------------------------------

  /** The roles the router knows. */
  const AllRoles: seq<string> := ["CPO", "CTO", "COO", "CISO"]

  /** The upper-case phrases that mark `role` as addressed. Unlike the extraction
      patterns, the first two need no colon and the last none either. */
  function DetectPatterns(role: string): seq<string> {
    ["QUESTION TO " + role, "QUESTION FOR " + role, "TO " + role + ":", "@" + role]
  }

  /** Some detection phrase for `role` occurs, as a plain substring, in the
      upper-cased response of `r`. */
  predicate Mentions(r: Record, role: string) {
    var content := Upper(r.response.GetOr(""));
    exists d :: 0 <= d < |DetectPatterns(role)| && Contains(content, DetectPatterns(role)[d])
  }

  /** The roles among `roles` that one record mentions. */
  function MentionedRoles(r: Record, roles: seq<string>): set<string> {
    set x | x in roles && Mentions(r, x)
  }

  /** `get_executives_with_questions`: every known role that some record
      mentions, with no word boundary and no exception for the author. */
  function ExecutivesWithQuestions(rs: seq<Record>): (s: set<string>)
    ensures forall x :: x in s <==> x in AllRoles && exists i :: 0 <= i < |rs| && Mentions(rs[i], x)
    decreases |rs|
  {
    if |rs| == 0 then {}
    else
      var init := rs[..|rs| - 1];
      var s := ExecutivesWithQuestions(init) + MentionedRoles(rs[|rs| - 1], AllRoles);
      assert forall i :: 0 <= i < |init| ==> init[i] == rs[i];
      s
  }

  /** The known role names are already upper case. */
  lemma RoleNamesUpper(t: string)
    requires t in AllRoles
    ensures Upper(t) == t
  {
  }

  /** Upper-casing a pattern built around an upper-case role name only touches
      the fixed text around it. */
  lemma UpperAround(prefix: string, t: string, suffix: string)
    requires Upper(t) == t
    ensures Upper(prefix + t + suffix) == Upper(prefix) + t + Upper(suffix)
  {
    UpperConcat(prefix, t);
    UpperConcat(prefix + t, suffix);
  }

  /** The fixed words of the extraction patterns, upper-cased. */
  lemma UpperLiterals()
    ensures Upper("Question to ") == "QUESTION TO "
    ensures Upper("Question for ") == "QUESTION FOR "
    ensures Upper("To ") == "TO "
    ensures Upper("@") == "@"
  {
  }

  /** Upper-casing `prefix + t + ":"` gives the detection phrase `d` followed
      by `tail` (a colon or nothing), so that phrase occurs in it. */
  lemma CoveredBy(prefix: string, upperPrefix: string, t: string, d: string, tail: string)
    requires Upper(t) == t && Upper(prefix) == upperPrefix
    requires d + tail == upperPrefix + t + ":"
    ensures Contains(Upper(prefix + t + ":"), d)
  {
    assert Upper(":") == ":";
    UpperAround(prefix, t, ":");
    assert OccursAt(Upper(prefix + t + ":"), d, 0);
  }

  /** Every extraction pattern, once upper-cased, starts with the detection
      pattern at the same position. */
  lemma PatternCovers(t: string, k: int)
    requires Upper(t) == t
    requires 0 <= k < 4
    ensures Contains(Upper(TargetPatterns(t)[k]), DetectPatterns(t)[k])
  {
    if k == 0 {
      UpperLiterals();
      CoveredBy("Question to ", "QUESTION TO ", t, "QUESTION TO " + t, ":");
    } else if k == 1 {
      UpperLiterals();
      CoveredBy("Question for ", "QUESTION FOR ", t, "QUESTION FOR " + t, ":");
    } else if k == 2 {
      UpperLiterals();
      CoveredBy("To ", "TO ", t, "TO " + t + ":", "");
    } else {
      UpperLiterals();
      CoveredBy("@", "@", t, "@" + t, ":");
    }
  }

  /** A record that asks `target` something also mentions `target`. */
  lemma AskedIsMentioned(r: Record, t: string)
    requires t in AllRoles
    requires Asks(r, t)
    ensures Mentions(r, t)
  {
    var response := r.response.GetOr("");
    var lines := Lines(response);
    var ps := TargetPatterns(t);
    var j :| 0 <= j < |lines| && QuestionIn(lines[j], ps).Some?;
    var line := lines[j];
    var k :| 0 <= k < |ps| && Contains(Upper(line), Upper(ps[k]));
    RoleNamesUpper(t);
    PatternCovers(t, k);
    ContainsTransitive(Upper(line), Upper(ps[k]), DetectPatterns(t)[k]);
    SplitPieceContained(response, "\n", j);
    ContainsUpper(response, line);
    ContainsTransitive(Upper(response), Upper(line), DetectPatterns(t)[k]);
  }

  /** Routing consistency, one way: a role that has any question extracted for
      it is among the roles the detector reports. */
  lemma ExtractedImpliesDetected(rs: seq<Record>, t: string)
    requires t in AllRoles
    requires ExtractDirectedQuestions(rs, t) != NoQuestions
    ensures t in ExecutivesWithQuestions(rs)
  {
    var i :| 0 <= i < |rs| && Asks(rs[i], t);
    AskedIsMentioned(rs[i], t);
  }

  /** The stage-2 answer of the counterexample below. */
  const ColonlessAnswer: Record := Answer("CPO", "Question to CTO?")

  /** Upper-casing keeps every character that is not a lower-case letter. */
  lemma UpperKeeps(s: string, c: char)
    requires c in s && !('a' <= c <= 'z')
    ensures c in Upper(s)
  {
    var i :| 0 <= i < |s| && s[i] == c;
    assert Upper(s)[i] == c;
  }

  /** "Question to CTO?" names the CTO in a detection phrase. */
  lemma ColonlessIsDetected()
    ensures "CTO" in ExecutivesWithQuestions([ColonlessAnswer])
  {
    var rs := [ColonlessAnswer];
    assert Upper("Question to CTO?") == "QUESTION TO CTO?";
    assert OccursAt(Upper("Question to CTO?"), DetectPatterns("CTO")[0], 0);
    assert Mentions(rs[0], "CTO");
  }

  /** "Question to CTO?" is a single line. */
  lemma ColonlessLines()
    ensures Lines("Question to CTO?") == ["Question to CTO?"]
  {
    AbsentCharNotContained("Question to CTO?", "\n", '\n');
    SplitWithoutSeparator("Question to CTO?", "\n");
  }

  /** Upper-casing brings in no character that is not an upper-case letter. */
  lemma UpperAddsNone(s: string, c: char)
    requires c !in s && !('A' <= c <= 'Z')
    ensures c !in Upper(s)
  {
    forall i | 0 <= i < |s|
      ensures Upper(s)[i] != c
    {
      assert s[i] != c;
    }
  }

  /** Every extraction pattern ends in a colon, so a line without a colon
      matches none of them, whatever the target. */
  lemma ColonlessNoCapture(line: string, t: string)
    requires ':' !in line
    ensures QuestionIn(line, TargetPatterns(t)).None?
  {
    var ps := TargetPatterns(t);
    UpperAddsNone(line, ':');
    forall k | 0 <= k < |ps|
      ensures !Contains(Upper(line), Upper(ps[k]))
    {
      assert ps[k][|ps[k]| - 1] == ':';
      UpperKeeps(ps[k], ':');
      AbsentCharNotContained(Upper(line), Upper(ps[k]), ':');
    }
    QuestionInSpec(line, ps);
  }

  /** "Question to CTO?" has no colon. */
  lemma ColonlessHasNoColon()
    ensures ':' !in "Question to CTO?"
  {
    var text := "Question to CTO?";
    forall i | 0 <= i < |text|
      ensures text[i] != ':'
    {
    }
  }

  /** So the CTO is told that nobody asked it anything. */
  lemma ColonlessIsNotExtracted()
    ensures ExtractDirectedQuestions([ColonlessAnswer], "CTO") == NoQuestions
  {
    ColonlessLines();
    ColonlessHasNoColon();
    ColonlessNoCapture("Question to CTO?", "CTO");
    assert !Asks(ColonlessAnswer, "CTO");
  }

  /** The converse of routing consistency fails: a colon-less
      "Question to CTO?" makes the CTO answer in stage 3, yet the CTO is told
      that no questions were directed to it. */
  lemma DetectedWithoutQuestion()
    ensures "CTO" in ExecutivesWithQuestions([ColonlessAnswer])
    ensures ExtractDirectedQuestions([ColonlessAnswer], "CTO") == NoQuestions
  {
    ColonlessIsDetected();
    ColonlessIsNotExtracted();
  }
}

=== FILE: text.dfy ===
/** The Python `str` operations the council code is built from, over `string`
    (a sequence of characters): `upper` (ASCII case mapping only), `in`,
    `find`, `startswith`, `split`, `join`, `replace` and `strip`. */
module Text {

  // ---------------------------------------------------------------------
  // Case mapping
  // ---------------------------------------------------------------------

  /** `c.upper()` for an ASCII letter; every other character is unchanged. */
  function UpperChar(c: char): char {
    if 'a' <= c <= 'z' then (c as int - 32) as char else c
  }

  /** `s.upper()` with ASCII case mapping (one character in, one out). */
  function Upper(s: string): (r: string)
    ensures |r| == |s|
  {
    seq(|s|, i requires 0 <= i < |s| => UpperChar(s[i]))
  }

  /** Upper-casing commutes with taking a slice. */
  lemma UpperSlice(s: string, i: int, j: int)
    requires 0 <= i <= j <= |s|
    ensures Upper(s[i..j]) == Upper(s)[i..j]
  {
  }

  /** Upper-casing commutes with concatenation. */
  lemma UpperConcat(a: string, b: string)
    ensures Upper(a + b) == Upper(a) + Upper(b)
  {
  }

  // ---------------------------------------------------------------------
  // Occurrence and search
  // ---------------------------------------------------------------------

  /** `p` occurs in `s` starting at index `i`. */
  predicate OccursAt(s: string, p: string, i: int) {
    0 <= i && i + |p| <= |s| && s[i..i + |p|] == p
  }

  /** Python's `p in s`. */
  predicate Contains(s: string, p: string) {
    exists i :: 0 <= i <= |s| - |p| && OccursAt(s, p, i)
  }

  /** Python's `s.startswith(p)`. */
  predicate StartsWith(s: string, p: string) {
    |p| <= |s| && s[..|p|] == p
  }

  /** A text that starts with `a + b` starts with `a`. */
  lemma StartsWithLonger(s: string, a: string, b: string)
    requires StartsWith(s, a + b)
    ensures StartsWith(s, a)
  {
    assert s[..|a|] == (a + b)[..|a|];
  }

  /** Dropping the first character shifts every later occurrence one place left. */
  lemma OccursAfterFirst(s: string, p: string)
    requires |s| > 0
    ensures forall j :: 1 <= j ==> (OccursAt(s, p, j) <==> OccursAt(s[1..], p, j - 1))
  {
    forall j | 1 <= j
      ensures OccursAt(s, p, j) <==> OccursAt(s[1..], p, j - 1)
    {
      if j + |p| <= |s| {
        assert s[1..][j - 1..j - 1 + |p|] == s[j..j + |p|];
      }
    }
  }

  /** Python's `s.find(p)`: the index of the first occurrence of `p` in `s`, or -1. */
  function Find(s: string, p: string): (r: int)
    ensures r == -1 || OccursAt(s, p, r)
    ensures forall j :: 0 <= j && (r == -1 || j < r) ==> !OccursAt(s, p, j)
    decreases |s|
  {
    if |s| < |p| then -1
    else if s[..|p|] == p then 0
    else
      var k := Find(s[1..], p);
      OccursAfterFirst(s, p);
      if k == -1 then -1 else k + 1
  }

  /** `find` succeeds exactly when `in` holds, and then names the first occurrence. */
  lemma FindIsFirst(s: string, p: string, i: int)
    requires OccursAt(s, p, i)
    requires forall j :: 0 <= j < i ==> !OccursAt(s, p, j)
    ensures Find(s, p) == i
  {
  }

  /** An occurrence inside a slice is an occurrence in the whole string, shifted. */
  lemma OccursInSlice(s: string, p: string, lo: int, hi: int, j: int)
    requires 0 <= lo <= hi <= |s|
    requires OccursAt(s[lo..hi], p, j)
    ensures OccursAt(s, p, lo + j)
  {
    var t := s[lo..hi];
    assert forall k :: 0 <= k < |p| ==> s[lo + j + k] == t[j + k] == p[k];
    assert s[lo + j..lo + j + |p|] == p;
  }

  /** Containment is transitive: a substring of a substring is a substring. */
  lemma ContainsTransitive(a: string, b: string, c: string)
    requires Contains(a, b)
    requires Contains(b, c)
    ensures Contains(a, c)
  {
    var i :| 0 <= i <= |a| - |b| && OccursAt(a, b, i);
    var j :| 0 <= j <= |b| - |c| && OccursAt(b, c, j);
    assert a[i..i + |b|] == b;
    OccursInSlice(a, c, i, i + |b|, j);
    assert OccursAt(a, c, i + j);
  }

  /** Case-blind search: upper-casing both sides preserves an occurrence. */
  lemma ContainsUpper(s: string, p: string)
    requires Contains(s, p)
    ensures Contains(Upper(s), Upper(p))
  {
    var i :| 0 <= i <= |s| - |p| && OccursAt(s, p, i);
    UpperSlice(s, i, i + |p|);
    assert OccursAt(Upper(s), Upper(p), i);
  }

  /** A pattern holding a character the text lacks cannot occur in it. */
  lemma AbsentCharNotContained(s: string, p: string, c: char)
    requires c in p
    requires c !in s
    ensures !Contains(s, p)
  {
  }

  /** A pattern whose last character appears in the text only before index
      `|p| - 1` cannot occur in it: no occurrence could end there. */
  lemma LastCharTooEarly(s: string, p: string)
    requires |p| > 0
    requires forall k :: |p| - 1 <= k < |s| ==> s[k] != p[|p| - 1]
    ensures !Contains(s, p)
  {
    forall i | 0 <= i <= |s| - |p|
      ensures !OccursAt(s, p, i)
    {
      assert s[i..i + |p|][|p| - 1] != p[|p| - 1];
    }
  }

  // ---------------------------------------------------------------------
  // Split and join
  // ---------------------------------------------------------------------

  /** `sep.join(xs)`. */
  function Join(xs: seq<string>, sep: string): string
    decreases |xs|
  {
    if |xs| == 0 then ""
    else if |xs| == 1 then xs[0]
    else xs[0] + sep + Join(xs[1..], sep)
  }

  /** The text before the first occurrence of `sep` contains no `sep`. */
  lemma NoneBeforeFirst(s: string, sep: string, i: int)
    requires |sep| > 0
    requires 0 <= i <= |s|
    requires forall j :: 0 <= j < i ==> !OccursAt(s, sep, j)
    ensures !Contains(s[..i], sep)
  {
    if Contains(s[..i], sep) {
      var j :| 0 <= j <= i - |sep| && OccursAt(s[..i], sep, j);
      OccursInSlice(s, sep, 0, i, j);
      assert false;
    }
  }

  /** `s.split(sep)` for a non-empty separator (Python rejects an empty one):
      the pieces between the non-overlapping occurrences of `sep`, left to right. */
  function Split(s: string, sep: string): (r: seq<string>)
    requires |sep| > 0
    ensures |r| >= 1
    ensures Join(r, sep) == s
    ensures forall k :: 0 <= k < |r| ==> !Contains(r[k], sep)
    decreases |s|
  {
    var i := Find(s, sep);
    if i == -1 then
      [s]
    else
      var rest := Split(s[i + |sep|..], sep);
      NoneBeforeFirst(s, sep, i);
      assert s == s[..i] + sep + s[i + |sep|..];
      [s[..i]] + rest
  }

  /** Joining a concatenation puts one separator at the seam. */
  lemma {:induction false} JoinConcat(a: seq<string>, b: seq<string>, sep: string)
    requires |a| > 0 && |b| > 0
    ensures Join(a + b, sep) == Join(a, sep) + sep + Join(b, sep)
    decreases |a|
  {
    if |a| == 1 {
      assert (a + b)[1..] == b;
    } else {
      assert (a + b)[1..] == a[1..] + b;
      JoinConcat(a[1..], b, sep);
    }
  }

  /** Joining keeps every element: each one occurs in the joined text. */
  lemma {:induction false} JoinContainsEach(xs: seq<string>, sep: string, k: int)
    requires 0 <= k < |xs|
    ensures Contains(Join(xs, sep), xs[k])
    decreases |xs|
  {
    if |xs| == 1 {
      assert OccursAt(Join(xs, sep), xs[k], 0);
    } else if k == 0 {
      assert OccursAt(Join(xs, sep), xs[0], 0);
    } else {
      JoinContainsEach(xs[1..], sep, k - 1);
      var j :| 0 <= j <= |Join(xs[1..], sep)| - |xs[k]| && OccursAt(Join(xs[1..], sep), xs[k], j);
      var whole := Join(xs, sep);
      var off := |xs[0]| + |sep|;
      assert whole[off..|whole|] == Join(xs[1..], sep);
      OccursInSlice(whole, xs[k], off, |whole|, j);
    }
  }

  /** A join starts with its first element. */
  lemma JoinStartsWithFirst(xs: seq<string>, sep: string)
    requires |xs| > 0
    ensures StartsWith(Join(xs, sep), xs[0])
  {
    if |xs| > 1 {
      assert Join(xs, sep) == xs[0] + (sep + Join(xs[1..], sep));
    }
  }

  /** Every piece produced by `split` is a substring of the original. */
  lemma SplitPieceContained(s: string, sep: string, k: int)
    requires |sep| > 0
    requires 0 <= k < |Split(s, sep)|
    ensures Contains(s, Split(s, sep)[k])
  {
    JoinContainsEach(Split(s, sep), sep, k);
  }

  /** Round trip: splitting a join on a one-character separator recovers the
      pieces, provided none of them contains that separator. */
  lemma {:induction false} SplitJoin(xs: seq<string>, sep: string)
    requires |sep| == 1
    requires |xs| >= 1
    requires forall k :: 0 <= k < |xs| ==> !Contains(xs[k], sep)
    ensures Split(Join(xs, sep), sep) == xs
    decreases |xs|
  {
    if |xs| > 1 {
      var s := Join(xs, sep);
      var x := xs[0];
      assert s == x + sep + Join(xs[1..], sep);
      assert OccursAt(s, sep, |x|);
      forall j | 0 <= j < |x|
        ensures !OccursAt(s, sep, j)
      {
        assert !OccursAt(x, sep, j);
        assert s[j..j + 1] == x[j..j + 1];
      }
      FindIsFirst(s, sep, |x|);
      assert s[|x| + |sep|..] == Join(xs[1..], sep);
      SplitJoin(xs[1..], sep);
    }
  }

  // ---------------------------------------------------------------------
  // Replacement
  // ---------------------------------------------------------------------

  /** `s.replace(pat, rep)`: each non-overlapping occurrence of `pat`, found
      scanning left to right, is replaced by `rep`. An empty `pat` inserts
      `rep` before every character and at the end, as Python does. */
  function ReplaceAll(s: string, pat: string, rep: string): (r: string)
    ensures |pat| > 0 && !Contains(s, pat) ==> r == s
    decreases |s|
  {
    if |pat| == 0 then
      if |s| == 0 then rep else rep + [s[0]] + ReplaceAll(s[1..], pat, rep)
    else
      var i := Find(s, pat);
      if i == -1 then s else s[..i] + rep + ReplaceAll(s[i + |pat|..], pat, rep)
  }

  /** A single occurrence, with none before it and none in what follows, is
      the only one replaced. */
  lemma ReplaceSingle(front: string, pat: string, back: string, rep: string)
    requires |pat| > 0
    requires forall j :: 0 <= j < |front| ==> !OccursAt(front + pat + back, pat, j)
    requires !Contains(back, pat)
    ensures ReplaceAll(front + pat + back, pat, rep) == front + rep + back
  {
    var m := front + pat + back;
    assert m[|front|..|front| + |pat|] == pat;
    FindIsFirst(m, pat, |front|);
    assert m[..|front|] == front;
    assert m[|front| + |pat|..] == back;
  }

  /** Removing a single occurrence joins the text around it. */
  lemma RemoveSingle(front: string, pat: string, back: string)
    requires |pat| > 0
    requires forall j :: 0 <= j < |front| ==> !OccursAt(front + pat + back, pat, j)
    requires !Contains(back, pat)
    ensures ReplaceAll(front + pat + back, pat, "") == front + back
  {
    ReplaceSingle(front, pat, back, "");
    JoinAroundEmpty(front, back);
  }

  /** Gluing two texts around an empty one is gluing them directly; kept apart
      from `RemoveSingle` so that the equation is proved in a small context. */
  lemma JoinAroundEmpty(front: string, back: string)
    ensures front + "" + back == front + back
  {
  }

  /** A text that begins with the pattern has its first replacement at the front. */
  lemma ReplaceAtStart(s: string, pat: string, rep: string)
    requires |pat| > 0 && StartsWith(s, pat)
    ensures ReplaceAll(s, pat, rep) == rep + ReplaceAll(s[|pat|..], pat, rep)
  {
    assert Find(s, pat) == 0 by {
      assert OccursAt(s, pat, 0);
      FindIsFirst(s, pat, 0);
    }
    assert s[..0] + rep == rep;
  }

  /** Splitting a text that holds no separator yields the text alone. */
  lemma SplitWithoutSeparator(s: string, sep: string)
    requires |sep| > 0 && !Contains(s, sep)
    ensures Split(s, sep) == [s]
  {
  }

  /** Reference definition: replacing is splitting on the pattern and joining
      the pieces with the replacement (Python's `rep.join(s.split(pat))`). */
  lemma {:induction false} ReplaceIsSplitJoin(s: string, pat: string, rep: string)
    requires |pat| > 0
    ensures ReplaceAll(s, pat, rep) == Join(Split(s, pat), rep)
    decreases |s|
  {
    var i := Find(s, pat);
    if i != -1 {
      var rest := s[i + |pat|..];
      ReplaceIsSplitJoin(rest, pat, rep);
      assert Split(s, pat) == [s[..i]] + Split(rest, pat);
      assert ([s[..i]] + Split(rest, pat))[1..] == Split(rest, pat);
    }
  }

  /** No character of `a` occurs in `b`. */
  predicate SharesNoChar(a: string, b: string) {
    forall c :: c in a ==> c !in b
  }

  /** Gluing two pattern-free texts around a non-empty text that shares no
      character with the pattern forms no occurrence of the pattern. */
  lemma NoneAcrossSeams(a: string, mid: string, b: string, pat: string)
    requires |pat| > 0 && |mid| > 0
    requires SharesNoChar(mid, pat)
    requires !Contains(a, pat) && !Contains(b, pat)
    ensures !Contains(a + mid + b, pat)
  {
    var r := a + mid + b;
    forall j | 0 <= j <= |r| - |pat|
      ensures !OccursAt(r, pat, j)
    {
      if j + |pat| <= |a| {
        assert r[j..j + |pat|] == a[j..j + |pat|];
        assert !OccursAt(a, pat, j);
      } else if j < |a| + |mid| {
        // the window overlaps `mid`, whose characters are not in `pat`
        var m := if j <= |a| then |a| else j;
        assert mid[m - |a|] in mid;
        assert r[j..j + |pat|][m - j] == mid[m - |a|];
      } else {
        var off := |a| + |mid|;
        assert r[j..j + |pat|] == b[j - off..j - off + |pat|];
        assert !OccursAt(b, pat, j - off);
      }
    }
  }

  /** When the replacement is non-empty and shares no character with the
      pattern, no occurrence of the pattern survives replacement: none is left
      over and none is formed where a replacement meets its neighbours. */
  lemma {:induction false} ReplaceLeavesNone(s: string, pat: string, rep: string)
    requires |pat| > 0 && |rep| > 0
    requires SharesNoChar(rep, pat)
    ensures !Contains(ReplaceAll(s, pat, rep), pat)
    decreases |s|
  {
    var i := Find(s, pat);
    if i != -1 {
      var rest := s[i + |pat|..];
      var tail := ReplaceAll(rest, pat, rep);
      assert !Contains(tail, pat) by {
        ReplaceLeavesNone(rest, pat, rep);
      }
      assert !Contains(s[..i], pat) by {
        NoneBeforeFirst(s, pat, i);
      }
      assert ReplaceAll(s, pat, rep) == s[..i] + rep + tail;
      NoneAcrossSeams(s[..i], rep, tail, pat);
    }
  }

  // ---------------------------------------------------------------------
  // Whitespace
  // ---------------------------------------------------------------------

  /** The characters Python's `str.strip()` removes within ASCII:
      tab, line feed, vertical tab, form feed, carriage return,
      the four information separators 0x1C-0x1F, and space. */
  predicate IsSpace(c: char) {
    c == ' ' || 9 <= c as int <= 13 || 28 <= c as int <= 31
  }

  /** `s.lstrip()`: the longest suffix of `s` that does not start with whitespace. */
  function TrimStart(s: string): (r: string)
    ensures |r| <= |s| && r == s[|s| - |r|..]
    ensures forall k :: 0 <= k < |s| - |r| ==> IsSpace(s[k])
    ensures |r| == 0 || !IsSpace(r[0])
    decreases |s|
  {
    if |s| > 0 && IsSpace(s[0]) then TrimStart(s[1..]) else s
  }

  /** `s.rstrip()`: the longest prefix of `s` that does not end with whitespace. */
  function TrimEnd(s: string): (r: string)
    ensures |r| <= |s| && r == s[..|r|]
    ensures forall k :: |r| <= k < |s| ==> IsSpace(s[k])
    ensures |r| == 0 || !IsSpace(r[|r| - 1])
    decreases |s|
  {
    if |s| > 0 && IsSpace(s[|s| - 1]) then TrimEnd(s[..|s| - 1]) else s
  }

  /** `s.strip()`: `s` without its leading and trailing whitespace. */
  function Strip(s: string): (r: string)
    ensures |r| == 0 || (!IsSpace(r[0]) && !IsSpace(r[|r| - 1]))
    ensures exists lead :: 0 <= lead <= |s| - |r| && StrippedAt(s, r, lead)
  {
    var t := TrimStart(s);
    var r := TrimEnd(t);
    assert StrippedAt(s, r, |s| - |t|);
    r
  }

  /** `r` is the slice of `s` that starts at `lead`, and everything outside that
      slice is whitespace. */
  predicate StrippedAt(s: string, r: string, lead: int) {
    && 0 <= lead <= |s| - |r|
    && r == s[lead..lead + |r|]
    && (forall k :: 0 <= k < lead ==> IsSpace(s[k]))
    && (forall k :: lead + |r| <= k < |s| ==> IsSpace(s[k]))
  }

  /** When the first non-whitespace character of `s` sits at `i`, the stripped
      text is a slice of `s` starting at `i`. */
  lemma StripStartsAt(s: string, i: int)
    requires 0 <= i < |s| && !IsSpace(s[i])
    requires forall k :: 0 <= k < i ==> IsSpace(s[k])
    ensures |Strip(s)| > 0 && i + |Strip(s)| <= |s|
    ensures Strip(s) == s[i..i + |Strip(s)|]
    ensures forall k :: i + |Strip(s)| <= k < |s| ==> IsSpace(s[k])
  {
    var r := Strip(s);
    var lead :| 0 <= lead <= |s| - |r| && StrippedAt(s, r, lead);
    assert lead <= i;
    assert i < lead + |r|;
    assert r[0] == s[lead];
    assert lead == i;
  }
}
